=== FILE: README.md ===
# Flatbox core bookkeeping, modelled in Dafny

This project models the sequential core of the Flatbox game engine, a Rust
workspace, as immutable Dafny datatypes and pure state-transition functions.
It proves properties of that model. The parts covered are:

- **Asset manager** (`AssetManager`, `Locks`). A handle-keyed store of
  type-erased assets, each behind its own reader/writer lock. `get`,
  `get_mut` and `get_dynamic` check three things in a fixed order: the handle
  is live, the lock can be taken without waiting, and the downcast succeeds.
  Handles come from a counter that is never reused, which stands in for the
  slot map's generations.
- **Resources** (`Resources`). One singleton per type. Lookups report
  failure as `None`.
- **Scenes** (`Scene`). The `entity!` and `scene!` builders, and
  `spawn_scene`, which replaces a world's entities with the scene's.
- **Component allow-list** (`SaveLoad`). What the `impl_save_load!` macro
  generates for a loader: the component count, the ids and columns written,
  and how ids read back select the columns to decode.
- **Model and mesh serde** (`Mesh`, `Models`). The hand-written
  `Serialize`/`Deserialize` of `Model` in map and in sequence form. Mesh GPU
  state is dropped by clone and by serde.
- **Renderer** (`Renderer`). Material pipelines, where the first binding
  wins. Models must be prepared before they are drawn.
- **Event handler** (`Events`). At most one writer per event type, with
  channels modelled as queues.
- **Logger** (`Logger`). The level filter, target splitting, the running
  target width, level labels and line layout.
- **Render context** (`FrameLoop`). The event-loop holder and the
  fixed-timestep frame scheduler, with time counted in integer ticks.
- **GUI painters** (`Textures`, `GuiPainter`, `EguiPainter`). The
  texture-id map both painters keep, texture upload assertions, the
  per-frame order "upload, paint, free", and the integer scissor clamp.

`Wrappers` holds `Option`/`Result`. `TypeIds` holds the type tag that stands
for a Rust `TypeId` together with its pretty name.

Where the repository's design description and its code disagree, the model
follows the code:

- `AssetManager::remove` returns nothing and removes the entry whatever
  type it is called with.
- A second `add_resource` silently replaces the first.
- Persistence is a serialization of the whole world, not an archive of
  named entries. That byte-level layer is left out, as listed below.

## Model

| member | source | states |
|---|---|---|
| Locks.TryRead | crates/assets/src/manager.rs:30-33 | a read lock is granted iff no writer holds the lock, and adds one reader |
| Locks.TryWrite | crates/assets/src/manager.rs:45-48 | a write lock is granted iff nobody holds the lock |
| Locks.TransitionsKeepExclusion | crates/assets/src/manager.rs:28-56 | every lock transition keeps readers and the writer mutually exclusive |
| Locks.ReaderExcludesWriter | crates/assets/src/manager.rs:43-48 | a held read lock refuses writers; a held write lock refuses everyone |
| AssetManager.New | crates/assets/src/manager.rs:20-22 | a new manager holds no assets |
| AssetManager.Insert | crates/assets/src/manager.rs:24-26 | insertion never fails, returns a handle no live asset uses, and adds one unlocked cell |
| AssetManager.Get | crates/assets/src/manager.rs:28-41 | dead handle gives InvalidHandle, a writer gives AssetBlocked, then a wrong type gives WrongAssetType with the requested name; success iff all three checks pass, and it takes one read lock |
| AssetManager.GetMut | crates/assets/src/manager.rs:43-56 | same order with a write lock, which needs the cell completely free |
| AssetManager.GetDynamic | crates/assets/src/manager.rs:58-64 | succeeds iff the handle is live and not write-locked; never reports a wrong type |
| AssetManager.Remove | crates/assets/src/manager.rs:66-68 | only that handle's entry goes; every other entry is unchanged |
| AssetManager.ReleaseRead | crates/assets/src/manager.rs:35-37 | dropping a read guard gives back one reader; other entries are unchanged |
| AssetManager.ReleaseWrite | crates/assets/src/manager.rs:50-52 | dropping a write guard stores what was written and frees the lock |
| AssetManager.InsertThenGet | crates/assets/src/manager.rs:24-37 | `get` of the inserted type on the new handle yields the inserted value |
| AssetManager.InsertThenGetOtherType | crates/assets/src/manager.rs:35-37 | `get`/`get_mut` of another type report WrongAssetType naming that type |
| AssetManager.InsertKeepsOtherLookups | crates/assets/src/manager.rs:24-26 | inserting never changes the answer for an earlier handle |
| AssetManager.RemoveInvalidates | crates/assets/src/manager.rs:66-68 | after removal every lookup of the handle is InvalidHandle, even after further inserts |
| AssetManager.LockCheckedBeforeType | crates/assets/src/manager.rs:29-37 | a locked cell of the wrong type reports AssetBlocked, not WrongAssetType |
| AssetManager.DynamicIgnoresType | crates/assets/src/manager.rs:58-64 | `get_dynamic` behaves as `get` of the stored type |
| AssetManager.ReadGuardExcludesWriterOnly | crates/assets/src/manager.rs:28-48 | while a read guard is out, that cell refuses writers but serves readers; other cells are unaffected |
| AssetManager.WriteGuardExcludesAll | crates/assets/src/manager.rs:43-64 | while a write guard is out, all three lookups of that cell are AssetBlocked |
| AssetManager.WriteThenRead | crates/assets/src/manager.rs:43-52 | a value written through a guard is what the next read sees |
| Resources.AddResource | crates/assets/src/resources.rs:21-23 | installs a fresh unlocked cell under the type, replacing any earlier one; other types unchanged |
| Resources.GetResource | crates/assets/src/resources.rs:25-38 | `Some` with the stored value iff the type is registered and not write-locked |
| Resources.GetResourceMut | crates/assets/src/resources.rs:40-53 | `Some` iff the type is registered and its lock is free |
| Resources.RemoveResource | crates/assets/src/resources.rs:55-57 | only that type's entry goes |
| Resources.DowncastNeverFails | crates/assets/src/resources.rs:32-34 | the downcast of a cell under its own type key always succeeds |
| Resources.AddThenGet | crates/assets/src/resources.rs:21-38 | adding then reading gives the value; the later of two adds wins |
| Resources.OnePerType | crates/assets/src/resources.rs:13-23 | adding twice is the same as adding only the second value |
| Resources.RemoveThenGet | crates/assets/src/resources.rs:55-57 | after removal the type answers `None`; every other type answers as before |
| Resources.ReadBlocksWrite | crates/assets/src/resources.rs:25-53 | a held read guard blocks `get_resource_mut` of that type but not another read |
| Scene.NewScene | crates/assets/src/scene.rs:50-53 | a new scene has no entities |
| Scene.EntityOf | crates/assets/src/scene.rs:30-43 | `entity!` yields exactly its arguments, in order |
| Scene.SceneOf | crates/assets/src/scene.rs:102-117 | `scene!` yields exactly its entities, in order |
| Scene.AddInto | crates/assets/src/ser_component.rs:34-36 | the builder gains the component's type with its value; a component of the same type is replaced and other types are kept |
| Scene.BuiltIsSpawned | crates/assets/src/scene.rs:129-133 | adding a list of components one by one gives an entity with exactly the listed types, each holding the value listed last for it |
| Scene.SpawnedUnique | crates/assets/src/scene.rs:129-133 | that description determines the entity: two entities spawned from one list are equal |
| Scene.LaterDuplicateWins | crates/assets/src/ser_component.rs:34-36 | two components of one type leave only the one added last |
| Scene.DistinctTypesAllKept | crates/assets/src/scene.rs:129-133 | when the types in a list are distinct, every listed component is kept with its own value |
| Scene.KeysAtMostComponents | crates/assets/src/scene.rs:129-133 | a spawned entity never has more components than its list |
| Scene.BuildEntity | crates/assets/src/scene.rs:129-133 | one scene entry's builder, as described above |
| Scene.SpawnScene | crates/assets/src/scene.rs:123-136 | the world afterwards holds one entity per scene entry, in scene order, each with exactly its entry's types and the value listed last for each type, and nothing from before |
| Scene.SpawnBuiltScene | crates/assets/src/scene.rs:102-136 | spawning a `scene!` built from entities with distinct component types gives back every component of every entity, entity by entity |
| SaveLoad.ComponentCount | crates/assets/src/save_load.rs:59-68 | counts the archetype's types on the allow-list; zero iff none is |
| SaveLoad.SerializedColumns | crates/assets/src/save_load.rs:82-92 | writes exactly the allow-listed types the archetype has |
| SaveLoad.SerializedColumnsPositions | crates/assets/src/save_load.rs:82-92 | each written column sits at a position of the allow-list, the positions strictly increase, and every allow-listed type the archetype has is among them |
| SaveLoad.SerializedColumnsKeepOrder | crates/assets/src/save_load.rs:70-92 | the columns (and so the ids, by SerializedIds) are the allow-list in declaration order with the absent types dropped: a subsequence of it |
| SaveLoad.SerializedIds | crates/assets/src/save_load.rs:70-80 | writes the name of each written column, in the same order |
| SaveLoad.CountMatchesWrittenColumns | crates/assets/src/save_load.rs:59-92 | when the macro lists each type once, the announced count equals the number of ids and of columns written, the size of the intersection |
| SaveLoad.RepeatedEntryOverruns | crates/assets/src/save_load.rs:59-92 | when the macro lists a type the archetype has twice, the announced count is smaller than the number of ids and of columns written |
| SaveLoad.Lookup | crates/assets/src/save_load.rs:103-111 | an id selects a type on the allow-list with that name, or none iff no entry has it |
| SaveLoad.KnownColumns | crates/assets/src/save_load.rs:102-113 | the columns selected by a list of ids: never more than the ids, and only allow-listed types |
| SaveLoad.DeserializeComponentIds | crates/assets/src/save_load.rs:96-116 | the recorded ids are exactly the ids read (old ones cleared); the batch is one column per recognised id; a decode failure is reported iff it occurs |
| SaveLoad.DecodeColumn | crates/assets/src/save_load.rs:127-128 | a column decodes iff it holds `entity_count` elements that all decode, giving them in order; otherwise Malformed, or ShortColumn when it ends early |
| SaveLoad.ColumnRoundTrip | crates/assets/src/save_load.rs:127-128 | a column written for `entity_count` entities reads back as the components written |
| SaveLoad.DecodeColumns | crates/assets/src/save_load.rs:118-137 | a batch decodes iff each of its columns is present and decodes; the result pairs each type with its decoded column |
| SaveLoad.DecodeColumnsFailsAt | crates/assets/src/save_load.rs:118-137 | a failed batch reports the first column that is missing or does not decode, with that column's error |
| SaveLoad.DecodeColumnsErrorSticks | crates/assets/src/save_load.rs:127-128 | the `?` ends the walk: once a prefix of the batch fails, longer batches fail with the same error |
| SaveLoad.DeserializeColumn | crates/assets/src/save_load.rs:127-128 | the next column: MissingColumn when the input has no more, else that column's decoding |
| SaveLoad.DecodeRecordedId | crates/assets/src/save_load.rs:124-133 | a recognised id decodes the next column and an unknown one consumes nothing, keeping the walk equal to the reference decoding |
| SaveLoad.DeserializeComponents | crates/assets/src/save_load.rs:118-137 | decodes one column of `entity_count` components per recognised recorded id, in order; succeeds iff every such column is present and decodes, and otherwise reports the first failing column's error |
| SaveLoad.ErrorEndsWalk | crates/assets/src/save_load.rs:127-128 | a column that fails ends the whole deserialization with its error |
| SaveLoad.KnownColumnsAppend | crates/assets/src/save_load.rs:102-113 | reading ids in two runs selects the same columns as reading them at once |
| SaveLoad.IdsRoundTrip | crates/assets/src/save_load.rs:70-116 | reading back the written ids selects exactly the written columns, in order |
| SaveLoad.IdsThenComponents | crates/assets/src/save_load.rs:96-137 | the batch announced and the columns decoded name the same types in the same order |
| SaveLoad.CountInIsCardinality | crates/assets/src/save_load.rs:59-68 | counting the types of a list without repeats that another set holds gives the size of the intersection |
| Mesh.DefaultMeshType | crates/render/src/pbr/mesh.rs:22-39 | the default mesh type is Cube |
| Mesh.New | crates/render/src/pbr/mesh.rs:55-63 | copies both slices and creates no GPU objects |
| Mesh.Clone | crates/render/src/pbr/mesh.rs:74-84 | keeps vertex and index data and drops every GPU object |
| Mesh.FromData | crates/render/src/pbr/mesh.rs:41-52 | deserializing gives back the serialized data with GPU fields at `None` |
| Mesh.SerdeRoundTripIsClone | crates/render/src/pbr/mesh.rs:41-84 | a serde round trip of a mesh equals its clone |
| Mesh.CloneIdempotent | crates/render/src/pbr/mesh.rs:74-84 | cloning a clone changes nothing more |
| Models.CubeModel | crates/render/src/pbr/model.rs:29-34 | `Model::cube()` has mesh type Cube and the cube mesh |
| Models.Serialize | crates/render/src/pbr/model.rs:37-56 | two fields, `mesh_type` then `mesh`; the mesh is written iff the type is Generic |
| Models.ScanFieldsOk | crates/render/src/pbr/model.rs:110-128 | the key loop accepts exactly known, well-typed fields with no key repeated, filling each slot from its field |
| Models.VisitMapOk | crates/render/src/pbr/model.rs:106-151 | map form succeeds iff the fields are well formed, `mesh_type` is present and supported, and a Generic model has its mesh |
| Models.DuplicateKey | crates/render/src/pbr/model.rs:115-126 | a repeated key is a duplicate-field error naming it |
| Models.MissingMeshType | crates/render/src/pbr/model.rs:130 | no `mesh_type` is a missing-field error |
| Models.MapMeshTypeDecides | crates/render/src/pbr/model.rs:132-145 | Cube loads as `Model::cube()` whatever mesh was written; Generic takes its mesh or is missing-field; other types are unsupported |
| Models.MapRoundTrip | crates/render/src/pbr/model.rs:37-151 | map form: deserializing a serialized Cube or Generic model gives it back (Cube with the cube mesh) |
| Models.VisitSeq | crates/render/src/pbr/model.rs:79-104 | sequence form as written: empty input is invalid_length(0); reads the mesh element only for Generic |
| Models.VisitSeqReadingMesh | crates/render/src/pbr/model.rs:79-104 | sequence form reading both elements written |
| Models.SeqVisitorsAgreeOnGeneric | crates/render/src/pbr/model.rs:79-104 | on input that starts with mesh type Generic, the visitor as written and the corrected one give the same result |
| Models.SeqRoundTripGeneric | crates/render/src/pbr/model.rs:79-104 | a Generic model round-trips through sequence form and every element is read |
| Models.SeqCubeLeavesMeshUnread | crates/render/src/pbr/model.rs:83-86 | a Cube model comes back, but the written `mesh` element stays unread |
| Models.SeqRoundTripReadingMesh | crates/render/src/pbr/model.rs:79-104 | with the mesh element read, Cube and Generic both round-trip and consume everything |
| Models.SeqGenericWithoutMesh | crates/render/src/pbr/model.rs:94-96 | a Generic sequence with no mesh element is invalid_length(1) |
| Renderer.Init | crates/render/src/renderer.rs:31-44 | a new renderer has no bound material |
| Renderer.GetPipeline | crates/render/src/renderer.rs:50-52 | the bound pipeline, or MaterialNotBound naming the material |
| Renderer.BindMaterial | crates/render/src/renderer.rs:54-69 | stores the pipeline only if the material has none; otherwise logs and keeps the first |
| Renderer.PrepareModel | crates/render/src/renderer.rs:106-119 | no mesh gives Ok with nothing changed; an unbound material gives MaterialNotBound with the mesh untouched; success marks the mesh prepared |
| Renderer.DrawModel | crates/render/src/renderer.rs:139-168 | no mesh gives Ok; an unprepared mesh gives ModelNotPrepared before any pipeline lookup; else draws all indices with the bound pipeline |
| Renderer.BindThenGet | crates/render/src/renderer.rs:50-69 | after binding, the pipeline is found; a second binding keeps the first |
| Renderer.PrepareThenDraw | crates/render/src/renderer.rs:106-168 | prepare then draw draws every index when bound; when unbound, prepare fails and draw refuses |
| Renderer.ClonedMeshNeedsPrepare | crates/render/src/pbr/mesh.rs:74-84 | a cloned mesh must be prepared again before it can be drawn |
| Events.New | crates/ecs/src/event.rs:17-19 | a new handler has no writers |
| Events.Send | crates/ecs/src/event.rs:21-27 | appends the event to the queue of the type's current writer only; no writer means no change |
| Events.PushWriter | crates/ecs/src/event.rs:29-33 | a fresh empty channel whose writer replaces the type's previous writer |
| Events.Read | crates/ecs/src/event.rs:67-69 | the oldest pending event, or `None` iff nothing is pending |
| Events.SendAllAppends | crates/ecs/src/event.rs:21-27 | a batch of sends appends the batch, in order, to the current writer's queue only |
| Events.ReadNDrains | crates/ecs/src/event.rs:67-69 | reading n times yields the first n pending events in order |
| Events.PushSendRead | crates/ecs/src/event.rs:21-33 | events sent after `push_writer` reach its reader in sending order, then it reads `None` |
| Events.ReplacedWriterIsDeaf | crates/ecs/src/event.rs:29-33 | after a second `push_writer`, the first reader gets nothing new; other types are unaffected |
| Events.SendWithoutWriter | crates/ecs/src/event.rs:21-27 | sending with no writer registered changes nothing |
| Logger.DefaultLogger | crates/core/src/logger.rs:55-64 | Debug with debug assertions, Info without |
| Logger.SplitTarget | crates/core/src/logger.rs:103-108 | a prefix without `::`, equal to the target iff it has no `::`, otherwise ending where the first `::` starts |
| Logger.MaxTargetWidth | crates/core/src/logger.rs:110-118 | the stored width becomes the larger of it and the target's length, and is returned |
| Logger.LevelLabel | crates/core/src/logger.rs:120-127 | every level label is five characters long |
| Logger.LabelsDistinct | crates/core/src/logger.rs:120-127 | labels tell the levels apart |
| Logger.Pad | crates/core/src/logger.rs:95-99 | left-aligned, space-filled to the width |
| Logger.Log | crates/core/src/logger.rs:71-85 | prints iff enabled; the line is the five-column label, a space, the target cut at `::` and space-padded to the new width, ` > `, then the whole message; the new width is exactly the larger of the stored width and the cut target's length |
| Logger.LevelOfLabel | crates/core/src/logger.rs:120-127 | a label names the level it is the label of, and no level has a label it does not recognise |
| Logger.LogLineParses | crates/core/src/logger.rs:71-85 | every printed line splits back into the record's level, its padded target and its message |
| Logger.EnabledMonotone | crates/core/src/logger.rs:67-69 | a logger that prints a level prints every more severe one |
| Logger.WidthCoversHistory | crates/core/src/logger.rs:110-118 | the width never shrinks and covers every target printed so far |
| Logger.WidthFromHistory | crates/core/src/logger.rs:110-118 | the width is the starting one or the length of some printed target, so with WidthCoversHistory it is exactly the largest of them |
| FrameLoop.Take | crates/render/src/context/mod.rs:63-71 | moves the loop out leaving NotPresent; panics iff already NotPresent |
| FrameLoop.AsRef | crates/render/src/context/mod.rs:73-80 | borrows the loop; panics iff NotPresent |
| FrameLoop.TakeOnce | crates/render/src/context/mod.rs:63-80 | after one take, a second take and any borrow panic |
| FrameLoop.NewContext | crates/render/src/context/mod.rs:131-146 | a new context has run no updates or renders and satisfies the scheduling invariant |
| FrameLoop.Elapsed | crates/render/src/context/mod.rs:164-167 | time since the previous frame, saturating at zero, clamped to the maximum frame time |
| FrameLoop.RunUpdates | crates/render/src/context/mod.rs:173-178 | fires floor(acc / step) update events, leaves acc mod step and adds the count to the updates |
| FrameLoop.NextFrame | crates/render/src/context/mod.rs:161-192 | exits without change when asked to; otherwise fires floor((acc + elapsed)/step) updates then one render iff not occluded, keeps acc = remainder < step, sets counters, blending factor and instants |
| Textures.CheckImage | crates/egui/src/painter.rs:248-260 | an image passes iff width*height equals its texel count and both sides are within the maximum; the byte-length assertion can never be the one that fails |
| Textures.Upload | crates/render/src/gui/painter.rs:314-339 | a whole image gives the texture storage of its size; a patch leaves its storage as it was |
| Textures.PaintPrimitives | crates/render/src/gui/painter.rs:219-237 | a mesh is drawn only with a texture in the map; with none known, nothing is drawn |
| Textures.PresentTextureIsDrawn | crates/render/src/gui/painter.rs:219-233 | every mesh whose texture is known is drawn with it and all its indices |
| Textures.New | crates/render/src/gui/painter.rs:81-90 | an empty map, the first native id `1 << 32`, the maximum side 4096 |
| Textures.Lookup | crates/render/src/gui/painter.rs:349-351 | the texture mapped to the id, if any |
| Textures.RegisterNativeTexture | crates/render/src/gui/painter.rs:353-358 | returns `User(next)`, maps it to the texture and advances the counter; the id is fresh |
| Textures.RegisterTwiceDistinct | crates/egui/src/painter.rs:327-332 | two registrations give distinct ids, both mapped to their textures |
| Textures.ReplaceNativeTexture | crates/render/src/gui/painter.rs:360-364 | maps the id to the replacement; a displaced texture is queued for destruction iff one was mapped |
| Textures.ReplaceLosesNothing | crates/egui/src/painter.rs:334-338 | every texture mapped before is still mapped or queued for destruction |
| Textures.FreeTexture | crates/render/src/gui/painter.rs:343-347 | only that id leaves the map |
| Textures.FreeAll | crates/render/src/gui/painter.rs:145-147 | every freed id is gone and every other entry is unchanged |
| GuiPainter.SetTexture | crates/render/src/gui/painter.rs:239-276 | the entry is created (with a fresh GL texture) before the assertions, so it survives a failed one; a whole image gives the texture its size; a patch lands in the same texture |
| GuiPainter.PatchKeepsImage | crates/render/src/gui/painter.rs:240-258 | a patch after a whole image keeps the texture's name and size |
| GuiPainter.ApplySets | crates/render/src/gui/painter.rs:139-141 | uploads every delta in order, stopping at the first failed assertion; fails iff some delta's image fails its checks; on success the mapped ids are exactly the old ones plus the delta ids |
| GuiPainter.ApplySetsKeepsNames | crates/render/src/gui/painter.rs:139-258 | every id mapped before the loop keeps its GL texture name, even when the loop stops at a failed assertion; an id no delta names keeps its texture unchanged |
| GuiPainter.PaintAndUpdateTextures | crates/render/src/gui/painter.rs:132-148 | uploads, then paints with the uploaded textures, then frees; on success the map holds the earlier ids and the delta ids minus the freed ones |
| GuiPainter.FreedTextureStillDrawn | crates/render/src/gui/painter.rs:139-147 | a texture uploaded and freed in one frame is drawn by that frame and gone after it |
| GuiPainter.U32AsI32 | crates/render/src/gui/painter.rs:385-388 | `u32 as i32` keeps values below 2^31 and turns larger ones negative |
| GuiPainter.Clamp | crates/render/src/gui/painter.rs:385-388 | `i32::clamp` panics iff the bounds are inverted, else lands within them and keeps values already inside |
| GuiPainter.SetClipRect | crates/render/src/gui/painter.rs:367-398 | succeeds iff both screen sides are below 2^31; the scissor box then lies within the screen |
| GuiPainter.ClipInsideScreenIsKept | crates/render/src/gui/painter.rs:385-396 | a clip rectangle inside the screen reaches GL unchanged, only flipped to upward y |
| EguiPainter.SetTexture | crates/egui/src/painter.rs:237-321 | assertions first with the map unchanged on failure; then the id maps to a new texture, which has storage only for a whole image |
| EguiPainter.PatchDiscardsImage | crates/egui/src/painter.rs:262-275 | a patch after a whole image replaces the texture by one with no storage |
| EguiPainter.SetTextureKeepingImage | crates/egui/src/painter.rs:237-321 | as above, except that a patch for a mapped id leaves that texture in place |
| EguiPainter.PatchKeepsImage | crates/egui/src/painter.rs:301-318 | with the corrected upload, a patch after a whole image keeps the first texture and its size |
| EguiPainter.KeepingImageAgreesOtherwise | crates/egui/src/painter.rs:237-321 | the correction changes nothing for whole images or unmapped ids |
| EguiPainter.ApplySets | crates/egui/src/painter.rs:138-140 | uploads every delta in order with `set_texture` as written; the `?` stops at the first failure; afterwards exactly the delta ids are added |
| EguiPainter.ApplySetsKeepsUntouched | crates/egui/src/painter.rs:138-140 | a texture no delta names keeps its entry |
| EguiPainter.LastDeltaWins | crates/egui/src/painter.rs:138-140 | after a clean pass every id holds the new texture its last delta built, with no storage when that delta is a patch |
| EguiPainter.FramePatchDiscardsImage | crates/egui/src/painter.rs:138-140 | one frame with a whole image and then a patch for one id leaves that id with a texture that has no storage |
| EguiPainter.ApplySetsKeepingImage | crates/egui/src/painter.rs:138-140 | the loop with the corrected upload fails exactly when the loop as written fails, and adds the same ids |
| EguiPainter.PatchesKeepTexture | crates/egui/src/painter.rs:138-140 | with the corrected upload, a texture that only receives patches in a frame is kept as it was |
| EguiPainter.FramePatchKeepsImage | crates/egui/src/painter.rs:138-140 | with the corrected upload, the same frame keeps the whole image's texture and size |
| EguiPainter.PaintAndUpdateTextures | crates/egui/src/painter.rs:130-149 | every set with the upload as written, then painting with the uploaded textures, then every free; on success the map holds the earlier ids and the delta ids minus the freed ones |
| EguiPainter.UnknownTexturesDrawNothing | crates/egui/src/painter.rs:224-234 | meshes with unknown textures draw nothing and the frame still completes |

## Left out

- Byte-level persistence is not modelled: RON, bincode, LZ4, file I/O (`serializer.rs`), and the `save`/`load` bodies at `crates/assets/src/save_load.rs:141-189`. These are encoders from outside libraries, plus files.
- `Scene::save`/`Scene::load` only hand the value and path to such a serializer, so they are left out with it.
- The typetag registries behind `Asset` and `SerializableComponent` are not modelled. Type identity is a `TypeTag`, and a component is a tag and a value.
- hecs internals are not modelled: the `EntityBuilder` and archetype storage. A world is the ordered list of its entities, each a map from component type to value, and an archetype is its list of component types. `EntityBuilder::add` replacing a component of the same type is modelled from its documented behaviour, since hecs is not part of this model.
- SaveLoad.DeserializeColumn: hecs `deserialize_column` is not part of this model. It is modelled as reading `entity_count` elements from the next column, where a missing column, an element that does not decode and a column that ends early all fail. What the format does with surplus elements in a column is not modelled.
- All OpenGL calls are not modelled: shaders, buffers, vertex arrays, texture parameters and draw state. A texture is its name plus the size of its level-0 storage. A draw is reported as the draw call it would issue. Compiling a pipeline is an input of `Renderer.BindMaterial`.
- Renderer.BindMaterial: the `expect` panics on a shader that does not compile are not modelled; compilation is taken to succeed.
- `Mesh::cube()` and the mesh's `prepared` flag are used by the renderer but not defined in the mesh source. The cube mesh is a parameter `cube`. `prepared` is a mesh field that is false on a new, cloned or deserialized mesh.
- Mesh types other than Cube and Generic hit `todo!()` on load; the model reports them as `Unsupported`.
- Floating point is not modelled: times are integer ticks, `blending_factor` is a real ratio, and pixel coordinates are integers already rounded. The egui crate's float clip clamp and both crates' callback rectangles (`crates/egui/src/painter.rs:172-189, 341-373`) are left out.
- FrameLoop.NextFrame: `number_of_updates` and `number_of_renders` are `u32` in the source and are modelled unbounded, so their wrap-around is not. The model also requires a positive step, which the source gets from `1.0 / updates_per_second`.
- `Context::new` and `Context::run` (window creation and the winit event dispatch, including the occlusion flag updates) are not modelled. The occlusion flag is an input of `NextFrame`, and the `thread::sleep` for an occluded window is left out.
- AssetManager.LockCheckedBeforeType, AssetManager.ReadGuardExcludesWriterOnly and AssetManager.WriteGuardExcludesAll describe a cell whose lock is still held when another lookup runs. `get`, `get_mut` and `get_dynamic` return guards that borrow the manager, so while a guard is alive no other call can run. That state is reached only once a guard is leaked (`mem::forget`, `Box::leak`, a reference cycle): the borrow ends but the lock stays held, and the lookups then report `AssetBlocked` as these lemmas state. Leaking is not modelled as an operation; a held lock in the store stands for it.
- Threads are not modelled: locks are plain reader counts and a writer flag, and only the non-blocking `try_read`/`try_write` are used. Channels are queues.
- Logger.MaxTargetWidth, Logger.Log: they count characters where the source counts UTF-8 bytes, so the stored width and the padding of the printed line agree with the source only on ASCII targets. The atomic width is an explicit state, and colours and bold text are omitted.
- Callback primitives of the painters (user callbacks, viewport changes) are not modelled. Painting is infallible in the model, although the egui crate's renderer commands return `Result`.
- `EventWriter::is_dropped` and the flume channel's disconnection are not modelled: a channel lives as long as its reader.
- Physics, math, colours, the camera, the egui/winit backends and the examples are outside the modelled core.
- GuiPainter.SetTexture, EguiPainter.SetTexture: neither painter source builds against the render crate of this revision. The egui painter calls `Texture::new_from_raw(width, height, data, descr)` while crates/render/src/pbr/texture.rs:110-115 declares `new_from_raw(buf, width, height, descr)`, and it uses `EnableCommand`, `Capability`, `WindowExtent`, `ScissorCommand`, `DrawTrianglesCommand` and `set_extent`, which the renderer does not define. crates/render/src/lib.rs declares no `gui` module, so crates/render/src/gui/painter.rs is not compiled, and its `Texture::from_raw` does not exist. Both models assume the evidently intended API: the image goes in as the buffer, a whole image by `glTexImage2D`, a patch by `glTexSubImage2D`.
- SaveLoad.CountMatchesWrittenColumns: it requires every type to be listed once in `impl_save_load!`. The macro does not enforce this: a type listed twice only draws an unreachable-pattern warning. For such a list the tuple length `component_count` announces is smaller than the number of elements written, which `SaveLoad.RepeatedEntryOverruns` states.
- Renderer.DrawModel: the index count is passed to `glDrawElements` as `len() as i32`, which wraps from 2^31 indices; the model keeps the count unbounded.

## Findings

| source | as written | input that shows it | evidently intended | confidence | as-written member | corrected member |
|---|---|---|---|---|---|---|
| crates/render/src/pbr/model.rs:79-104 | `visit_seq` reads the second element (`mesh`) only for Generic models | a serialized Cube model in sequence form, `[mesh_type: Cube, mesh: None]`: the visitor returns after one element, and the `None` written by `serialize` (line 50) is still pending | read, and ignore, the mesh element for every mesh type, as the serializer always writes it | medium, not executed | Models.VisitSeq, Models.SeqCubeLeavesMeshUnread | Models.VisitSeqReadingMesh, Models.SeqRoundTripReadingMesh |
| crates/egui/src/painter.rs:262-275 | every image delta, including a patch (`pos = Some`), creates a new texture and replaces the mapped one | a whole 64x64 image for an id, then a patch for the same id: the patch goes by `glTexSubImage2D` into a texture with no storage (`crates/render/src/pbr/texture.rs:160`), and the 64x64 texture is dropped | upload a patch into the texture already mapped, as the render crate's painter does (`crates/render/src/gui/painter.rs:240-258`) | medium, not executed; the egui crate as written does not type-check against this revision (it passes `width, height, data` to `new_from_raw(buf, width, height, descr)`), so the outcome assumes the evidently intended argument order | EguiPainter.SetTexture, EguiPainter.PatchDiscardsImage, EguiPainter.ApplySets, EguiPainter.FramePatchDiscardsImage | EguiPainter.SetTextureKeepingImage, EguiPainter.PatchKeepsImage, EguiPainter.ApplySetsKeepingImage, EguiPainter.FramePatchKeepsImage |

=== FILE: asset_manager.dfy ===
/**
 * `AssetManager`: a handle-keyed store of type-erased assets, each behind its
 * own reader/writer lock. Lookups check, in this order, that the handle is
 * live, that the lock can be taken without waiting, and that the stored
 * asset has the requested type.
 *
 * The slot map's generational keys are modelled by a counter that is never
 * reused, so a handle of a removed asset can never name a later one.
 */
module AssetManager {
  import opened Wrappers
  import opened TypeIds
  import opened Locks

  datatype AssetHandle = AssetHandle(key: nat)

  /** The closed error enum of the assets crate. */
  datatype AssetError =
    | InvalidHandle
    | AssetBlocked
    | WrongAssetType(assetType: string)

  /** One `Arc<RwLock<Box<dyn Asset>>>`: the concrete type, the value, the lock. */
  datatype Cell<V> = Cell(tag: TypeTag, value: V, lock: LockState)

  datatype Store<V> = Store(cache: map<AssetHandle, Cell<V>>, next: nat) {
    /** Every live handle was issued before `next`, and every lock is consistent. */
    predicate Valid() {
      && (forall h :: h in cache ==> h.key < next)
      && (forall h :: h in cache ==> cache[h].lock.Valid())
    }
  }

  /** A read guard, typed or dynamic: it names its cell and shows the value. */
  datatype ReadGuard<V> = ReadGuard(handle: AssetHandle, tag: TypeTag, value: V)

  /** A write guard; `value` is what the holder has written through it. */
  datatype WriteGuard<V> = WriteGuard(handle: AssetHandle, value: V)

  /** The outcome of a lookup together with the store, whose lock state it may change. */
  datatype Access<G, V> = Access(result: Result<G, AssetError>, store: Store<V>)

  function New<V>(): (s: Store<V>)
    ensures s.Valid() && s.cache == map[]
  {
    Store(map[], 0)
  }

  /** `insert`: never fails and hands out a handle that no live asset uses. */
  function Insert<V>(s: Store<V>, tag: TypeTag, value: V): (r: (Store<V>, AssetHandle))
    requires s.Valid()
    ensures r.0.Valid()
    ensures r.1 !in s.cache
    ensures r.0.cache == s.cache[r.1 := Cell(tag, value, Unlocked)]
    ensures r.0.next > s.next
  {
    var h := AssetHandle(s.next);
    (Store(s.cache[h := Cell(tag, value, Unlocked)], s.next + 1), h)
  }

  /** `get::<A>`: handle, then `try_read`, then the downcast. */
  function Get<V>(s: Store<V>, h: AssetHandle, want: TypeTag): (a: Access<ReadGuard<V>, V>)
    requires s.Valid()
    ensures a.store.Valid()
    ensures h !in s.cache ==> a == Access(Err(InvalidHandle), s)
    ensures h in s.cache && s.cache[h].lock.writer ==> a == Access(Err(AssetBlocked), s)
    ensures h in s.cache && !s.cache[h].lock.writer && s.cache[h].tag != want ==>
              a == Access(Err(WrongAssetType(want.name)), s)
    ensures a.result.Ok? <==> h in s.cache && !s.cache[h].lock.writer && s.cache[h].tag == want
    ensures a.result.Ok? ==>
              && a.result.value == ReadGuard(h, want, s.cache[h].value)
              && a.store.cache == s.cache[h := s.cache[h].(lock := LockState(s.cache[h].lock.readers + 1, false))]
              && a.store.next == s.next
  {
    if h !in s.cache then Access(Err(InvalidHandle), s)
    else
      var cell := s.cache[h];
      match TryRead(cell.lock)
      case None => Access(Err(AssetBlocked), s)
      case Some(held) =>
        // the read guard is dropped again when `try_map` fails
        if cell.tag != want then Access(Err(WrongAssetType(want.name)), s)
        else Access(Ok(ReadGuard(h, cell.tag, cell.value)), s.(cache := s.cache[h := cell.(lock := held)]))
  }

  /** `get_mut::<A>`: handle, then `try_write`, then the downcast. */
  function GetMut<V>(s: Store<V>, h: AssetHandle, want: TypeTag): (a: Access<WriteGuard<V>, V>)
    requires s.Valid()
    ensures a.store.Valid()
    ensures h !in s.cache ==> a == Access(Err(InvalidHandle), s)
    ensures h in s.cache && !s.cache[h].lock.IsFree() ==> a == Access(Err(AssetBlocked), s)
    ensures h in s.cache && s.cache[h].lock.IsFree() && s.cache[h].tag != want ==>
              a == Access(Err(WrongAssetType(want.name)), s)
    ensures a.result.Ok? <==> h in s.cache && s.cache[h].lock.IsFree() && s.cache[h].tag == want
    ensures a.result.Ok? ==>
              && a.result.value == WriteGuard(h, s.cache[h].value)
              && a.store.cache == s.cache[h := s.cache[h].(lock := LockState(0, true))]
              && a.store.next == s.next
  {
    if h !in s.cache then Access(Err(InvalidHandle), s)
    else
      var cell := s.cache[h];
      match TryWrite(cell.lock)
      case None => Access(Err(AssetBlocked), s)
      case Some(held) =>
        if cell.tag != want then Access(Err(WrongAssetType(want.name)), s)
        else Access(Ok(WriteGuard(h, cell.value)), s.(cache := s.cache[h := cell.(lock := held)]))
  }

  /** `get_dynamic`: like `get` but with no type check; the guard reports the stored type. */
  function GetDynamic<V>(s: Store<V>, h: AssetHandle): (a: Access<ReadGuard<V>, V>)
    requires s.Valid()
    ensures a.store.Valid()
    ensures h !in s.cache ==> a == Access(Err(InvalidHandle), s)
    ensures a.result.Ok? <==> h in s.cache && !s.cache[h].lock.writer
    ensures a.result.Err? ==> a.store == s && !a.result.error.WrongAssetType?
    ensures a.result.Ok? ==> a.result.value == ReadGuard(h, s.cache[h].tag, s.cache[h].value)
  {
    if h !in s.cache then Access(Err(InvalidHandle), s)
    else
      var cell := s.cache[h];
      match TryRead(cell.lock)
      case None => Access(Err(AssetBlocked), s)
      case Some(held) => Access(Ok(ReadGuard(h, cell.tag, cell.value)), s.(cache := s.cache[h := cell.(lock := held)]))
  }

  /** `remove::<A>`: drops the entry whatever `A` is; the type parameter plays no part. */
  function Remove<V>(s: Store<V>, h: AssetHandle): (r: Store<V>)
    requires s.Valid()
    ensures r.Valid()
    ensures h !in r.cache
    ensures forall k :: k != h ==> (k in r.cache <==> k in s.cache)
    ensures forall k :: k in r.cache ==> r.cache[k] == s.cache[k]
    ensures r.next == s.next
  {
    s.(cache := s.cache - {h})
  }

  /**
   * Dropping a read guard. A guard borrows the manager, so `remove` cannot
   * run while it lives; the branch for a missing entry only keeps the
   * function total and leaves the store alone.
   */
  function ReleaseRead<V>(s: Store<V>, g: ReadGuard<V>): (r: Store<V>)
    requires s.Valid()
    ensures r.Valid()
    ensures r.cache.Keys == s.cache.Keys && r.next == s.next
    ensures forall k :: k in s.cache && k != g.handle ==> r.cache[k] == s.cache[k]
    ensures g.handle in s.cache && s.cache[g.handle].lock.readers > 0 ==>
              r.cache[g.handle].lock.readers + 1 == s.cache[g.handle].lock.readers
  {
    if g.handle in s.cache && s.cache[g.handle].lock.readers > 0 then
      var cell := s.cache[g.handle];
      s.(cache := s.cache[g.handle := cell.(lock := Locks.ReleaseRead(cell.lock))])
    else s
  }

  /** Dropping a write guard: what was written through it is what the cell now holds. */
  function ReleaseWrite<V>(s: Store<V>, g: WriteGuard<V>): (r: Store<V>)
    requires s.Valid()
    ensures r.Valid()
    ensures r.cache.Keys == s.cache.Keys && r.next == s.next
    ensures forall k :: k in s.cache && k != g.handle ==> r.cache[k] == s.cache[k]
    ensures g.handle in s.cache && s.cache[g.handle].lock.writer ==>
              r.cache[g.handle] == Cell(s.cache[g.handle].tag, g.value, Unlocked)
  {
    if g.handle in s.cache && s.cache[g.handle].lock.writer then
      var cell := s.cache[g.handle];
      s.(cache := s.cache[g.handle := Cell(cell.tag, g.value, Locks.ReleaseWrite(cell.lock))])
    else s
  }

  // ---------------------------------------------------------------------
  // Properties relating several operations
  // ---------------------------------------------------------------------

  /** Insert then `get` of the same type yields the inserted value. */
  lemma InsertThenGet<V>(s: Store<V>, tag: TypeTag, v: V)
    requires s.Valid()
    ensures var (s', h) := Insert(s, tag, v);
            Get(s', h, tag).result == Ok(ReadGuard(h, tag, v))
  {
  }

  /** Insert then `get` of any other type reports that type's name, never a confused read. */
  lemma InsertThenGetOtherType<V>(s: Store<V>, tag: TypeTag, other: TypeTag, v: V)
    requires s.Valid() && other != tag
    ensures var (s', h) := Insert(s, tag, v);
            Get(s', h, other).result == Err(WrongAssetType(other.name))
            && GetMut(s', h, other).result == Err(WrongAssetType(other.name))
  {
  }

  /** Inserting never disturbs a lookup of any handle issued before. */
  lemma InsertKeepsOtherLookups<V>(s: Store<V>, tag: TypeTag, v: V, h: AssetHandle, want: TypeTag)
    requires s.Valid() && h in s.cache
    ensures var (s', _) := Insert(s, tag, v);
            Get(s', h, want).result == Get(s, h, want).result
            && GetMut(s', h, want).result == GetMut(s, h, want).result
  {
  }

  /**
   * After `remove`, every lookup of that handle is `InvalidHandle`, and a
   * later insert never revives it, for any handle this store has issued.
   */
  lemma RemoveInvalidates<V>(s: Store<V>, h: AssetHandle, want: TypeTag, tag: TypeTag, v: V)
    requires s.Valid() && h.key < s.next
    ensures var r := Remove(s, h);
            && Get(r, h, want).result == Err(InvalidHandle)
            && GetMut(r, h, want).result == Err(InvalidHandle)
            && GetDynamic(r, h).result == Err(InvalidHandle)
            && Get(Insert(r, tag, v).0, h, want).result == Err(InvalidHandle)
  {
    var r := Remove(s, h);
    var (r', h') := Insert(r, tag, v);
    assert h' != h;
  }

  /**
   * The check order: a locked cell reports `AssetBlocked` even when the type
   * is wrong, and a dead handle reports `InvalidHandle` before anything else.
   */
  lemma LockCheckedBeforeType<V>(s: Store<V>, h: AssetHandle, want: TypeTag)
    requires s.Valid() && h in s.cache && s.cache[h].tag != want
    ensures s.cache[h].lock.writer ==> Get(s, h, want).result == Err(AssetBlocked)
    ensures !s.cache[h].lock.IsFree() ==> GetMut(s, h, want).result == Err(AssetBlocked)
  {
  }

  /** `get_dynamic` never reports a wrong type: it succeeds whenever a typed `get` of the stored type does. */
  lemma DynamicIgnoresType<V>(s: Store<V>, h: AssetHandle)
    requires s.Valid() && h in s.cache
    ensures GetDynamic(s, h) == Get(s, h, s.cache[h].tag)
  {
  }

  /**
   * While a read guard is out, writers of that cell are refused but readers
   * and writers of every other cell are served as before. A guard borrows
   * the manager, so a later call meets this state once the guard is leaked
   * (`mem::forget`, `Box::leak`, a reference cycle) with its lock still held.
   */
  lemma ReadGuardExcludesWriterOnly<V>(s: Store<V>, h: AssetHandle, want: TypeTag, other: AssetHandle, any: TypeTag)
    requires s.Valid() && Get(s, h, want).result.Ok? && other != h
    ensures var s' := Get(s, h, want).store;
            && GetMut(s', h, any).result == Err(AssetBlocked)
            && Get(s', h, want).result.Ok?
            && GetMut(s', other, any).result == GetMut(s, other, any).result
            && Get(s', other, any).result == Get(s, other, any).result
  {
  }

  /**
   * While a write guard is out, every other access to that cell is refused;
   * as above, a later call meets this state once the guard is leaked.
   */
  lemma WriteGuardExcludesAll<V>(s: Store<V>, h: AssetHandle, want: TypeTag, any: TypeTag)
    requires s.Valid() && GetMut(s, h, want).result.Ok?
    ensures var s' := GetMut(s, h, want).store;
            && Get(s', h, any).result == Err(AssetBlocked)
            && GetMut(s', h, any).result == Err(AssetBlocked)
            && GetDynamic(s', h).result == Err(AssetBlocked)
  {
  }

  /** Writing through a guard and dropping it makes the next read see the written value. */
  lemma WriteThenRead<V>(s: Store<V>, h: AssetHandle, want: TypeTag, v: V)
    requires s.Valid() && GetMut(s, h, want).result.Ok?
    ensures var a := GetMut(s, h, want);
            var s' := ReleaseWrite(a.store, WriteGuard(h, v));
            Get(s', h, want).result == Ok(ReadGuard(h, want, v))
  {
  }
}

=== FILE: egui_painter.dfy ===
/**
 * The egui crate's painter. It keeps the same texture map as the render
 * crate's painter, but checks an image before touching the map, builds a
 * new texture for every delta, and paints through the renderer's commands.
 */
module EguiPainter {
  import opened Wrappers
  import opened Textures

  /**
   * `set_texture` as written: the assertions come first, then every delta,
   * a whole image or a patch alike, becomes a new texture named
   * `generated` that replaces whatever `id` mapped to.
   */
  function SetTexture(p: Painter, id: TextureId, delta: ImageDelta, generated: nat): (s: Step)
    ensures s.panic.None? <==>
              (delta.image.width * delta.image.height == delta.image.texels &&
               delta.image.width <= p.maxTextureSide && delta.image.height <= p.maxTextureSide)
    ensures s.panic != Some(ByteLengthMismatch)
    ensures s.panic.Some? ==> s.painter == p
    ensures s.panic.None? ==> s.painter.textures.Keys == p.textures.Keys + {id}
    ensures s.panic.None? ==> s.painter.textures[id].glName == generated
    ensures s.panic.None? && delta.pos.None? ==> s.painter.textures[id].storage == Some((delta.image.width, delta.image.height))
    ensures s.panic.None? && delta.pos.Some? ==> s.painter.textures[id].storage.None?
    ensures forall k :: k in p.textures && k != id ==> s.painter.textures[k] == p.textures[k]
    ensures s.painter.texturesToDestroy == p.texturesToDestroy && s.painter.nextNativeTexId == p.nextNativeTexId
    ensures s.painter.maxTextureSide == p.maxTextureSide
  {
    var check := CheckImage(delta.image, p.maxTextureSide);
    if check.Some? then Step(p, check)
    else Step(p.(textures := p.textures[id := Upload(Texture(generated, None), delta)]), None)
  }

  /**
   * The discrepancy: a patch sent after a whole image replaces the
   * uploaded texture by a new one that never received storage, so the
   * image is gone.
   */
  lemma PatchDiscardsImage(p: Painter, id: TextureId, whole: ImageDelta, patch: ImageDelta, g1: nat, g2: nat)
    requires whole.pos.None? && patch.pos.Some?
    requires CheckImage(whole.image, p.maxTextureSide).None? && CheckImage(patch.image, p.maxTextureSide).None?
    ensures var s1 := SetTexture(p, id, whole, g1);
            var s2 := SetTexture(s1.painter, id, patch, g2);
            s1.painter.textures[id].storage == Some((whole.image.width, whole.image.height)) &&
            s2.painter.textures[id] == Texture(g2, None)
  {
  }

  /**
   * `set_texture` as evidently intended: a patch for a mapped id is
   * uploaded into the texture already there, as the render crate's painter
   * does; anything else behaves as written.
   */
  function SetTextureKeepingImage(p: Painter, id: TextureId, delta: ImageDelta, generated: nat): (s: Step)
    ensures s.panic.None? <==>
              (delta.image.width * delta.image.height == delta.image.texels &&
               delta.image.width <= p.maxTextureSide && delta.image.height <= p.maxTextureSide)
    ensures s.panic.Some? ==> s.painter == p
    ensures s.panic.None? ==> s.painter.textures.Keys == p.textures.Keys + {id}
    ensures s.panic.None? && delta.pos.Some? && id in p.textures ==> s.painter.textures[id] == p.textures[id]
    ensures forall k :: k in p.textures && k != id ==> s.painter.textures[k] == p.textures[k]
    ensures s.painter.texturesToDestroy == p.texturesToDestroy && s.painter.nextNativeTexId == p.nextNativeTexId
    ensures s.painter.maxTextureSide == p.maxTextureSide
  {
    if delta.pos.Some? && id in p.textures then
      var check := CheckImage(delta.image, p.maxTextureSide);
      if check.Some? then Step(p, check)
      else Step(p.(textures := p.textures[id := Upload(p.textures[id], delta)]), None)
    else SetTexture(p, id, delta, generated)
  }

  /** The corrected upload keeps a whole image's texture and size through later patches. */
  lemma PatchKeepsImage(p: Painter, id: TextureId, whole: ImageDelta, patch: ImageDelta, g1: nat, g2: nat)
    requires whole.pos.None? && patch.pos.Some?
    requires CheckImage(whole.image, p.maxTextureSide).None?
    ensures var s1 := SetTextureKeepingImage(p, id, whole, g1);
            var s2 := SetTextureKeepingImage(s1.painter, id, patch, g2);
            s2.painter.textures[id] == Texture(g1, Some((whole.image.width, whole.image.height)))
  {
  }

  /** The corrected upload changes nothing for whole images or for ids not yet mapped. */
  lemma KeepingImageAgreesOtherwise(p: Painter, id: TextureId, delta: ImageDelta, generated: nat)
    requires delta.pos.None? || id !in p.textures
    ensures SetTextureKeepingImage(p, id, delta, generated) == SetTexture(p, id, delta, generated)
  {
  }

  /** Delta `i` is the last one in `sets` for its id. */
  predicate LastForId(sets: seq<SetOp>, i: int)
  {
    0 <= i < |sets| && forall k :: i < k < |sets| ==> sets[k].id != sets[i].id
  }

  /**
   * The upload loop of a frame, calling `set_texture` as written: the `?`
   * stops at the first delta that fails.
   */
  function ApplySets(p: Painter, sets: seq<SetOp>): (s: Step)
    ensures s.panic.None? <==> forall i :: 0 <= i < |sets| ==> CheckImage(sets[i].delta.image, p.maxTextureSide).None?
    ensures s.panic.None? ==> s.painter.textures.Keys == p.textures.Keys + IdsOf(sets)
    ensures s.painter.maxTextureSide == p.maxTextureSide && s.painter.nextNativeTexId == p.nextNativeTexId
    ensures s.painter.texturesToDestroy == p.texturesToDestroy
    decreases |sets|
  {
    if sets == [] then Step(p, None)
    else
      var first := SetTexture(p, sets[0].id, sets[0].delta, sets[0].generated);
      if first.panic.Some? then first
      else
        var rest := ApplySets(first.painter, sets[1..]);
        assert sets == [sets[0]] + sets[1..];
        rest
  }

  /** Textures whose ids no delta names keep their entries through the loop as written. */
  lemma {:induction false} ApplySetsKeepsUntouched(p: Painter, sets: seq<SetOp>, k: TextureId)
    requires k in p.textures && k !in IdsOf(sets)
    ensures k in ApplySets(p, sets).painter.textures && ApplySets(p, sets).painter.textures[k] == p.textures[k]
    decreases |sets|
  {
    if sets != [] {
      var first := SetTexture(p, sets[0].id, sets[0].delta, sets[0].generated);
      if first.panic.None? {
        assert sets[0] in sets;
        assert k !in IdsOf(sets[1..]) by {
          forall op | op in sets[1..] ensures op.id != k { assert op in sets; }
        }
        ApplySetsKeepsUntouched(first.painter, sets[1..], k);
      }
    }
  }

  /**
   * After a clean pass of the loop as written, every id holds the new
   * texture its last delta built, even when that delta is a patch.
   */
  lemma {:induction false} LastDeltaWins(p: Painter, sets: seq<SetOp>, i: nat)
    requires LastForId(sets, i) && ApplySets(p, sets).panic.None?
    ensures ApplySets(p, sets).painter.textures[sets[i].id] == Upload(Texture(sets[i].generated, None), sets[i].delta)
    decreases |sets|
  {
    var first := SetTexture(p, sets[0].id, sets[0].delta, sets[0].generated);
    var rest := sets[1..];
    if i == 0 {
      assert sets[0].id !in IdsOf(rest) by {
        forall op | op in rest ensures op.id != sets[0].id {
          var k :| 0 <= k < |rest| && rest[k] == op;
          assert sets[k + 1] == op;
        }
      }
      ApplySetsKeepsUntouched(first.painter, rest, sets[0].id);
    } else {
      assert LastForId(rest, i - 1) by {
        forall k | i - 1 < k < |rest| ensures rest[k].id != rest[i - 1].id {
          assert rest[k] == sets[k + 1];
        }
      }
      LastDeltaWins(first.painter, rest, i - 1);
    }
  }

  /** The upload loop with the corrected `set_texture`; it fails exactly as the loop as written does. */
  function ApplySetsKeepingImage(p: Painter, sets: seq<SetOp>): (s: Step)
    ensures s.panic.None? <==> ApplySets(p, sets).panic.None?
    ensures s.panic.None? ==> s.painter.textures.Keys == p.textures.Keys + IdsOf(sets)
    ensures s.painter.maxTextureSide == p.maxTextureSide && s.painter.nextNativeTexId == p.nextNativeTexId
    ensures s.painter.texturesToDestroy == p.texturesToDestroy
    decreases |sets|
  {
    if sets == [] then Step(p, None)
    else
      var first := SetTextureKeepingImage(p, sets[0].id, sets[0].delta, sets[0].generated);
      if first.panic.Some? then first
      else
        var rest := ApplySetsKeepingImage(first.painter, sets[1..]);
        assert sets == [sets[0]] + sets[1..];
        rest
  }

  /** With the corrected upload, a texture that only receives patches in the frame is kept as it was. */
  lemma {:induction false} PatchesKeepTexture(p: Painter, sets: seq<SetOp>, k: TextureId)
    requires k in p.textures
    requires forall i :: 0 <= i < |sets| && sets[i].id == k ==> sets[i].delta.pos.Some?
    ensures k in ApplySetsKeepingImage(p, sets).painter.textures && ApplySetsKeepingImage(p, sets).painter.textures[k] == p.textures[k]
    decreases |sets|
  {
    if sets != [] {
      var first := SetTextureKeepingImage(p, sets[0].id, sets[0].delta, sets[0].generated);
      if first.panic.None? {
        assert first.painter.textures[k] == p.textures[k];
        assert forall i :: 0 <= i < |sets| - 1 ==> sets[1..][i] == sets[i + 1];
        PatchesKeepTexture(first.painter, sets[1..], k);
      }
    }
  }

  /**
   * The discrepancy at frame level: one `TexturesDelta` holding a whole
   * image and then a patch for the same id leaves that id with a texture
   * that has no storage.
   */
  lemma FramePatchDiscardsImage(p: Painter, id: TextureId, whole: ImageDelta, patch: ImageDelta, g1: nat, g2: nat)
    requires whole.pos.None? && patch.pos.Some?
    requires CheckImage(whole.image, p.maxTextureSide).None? && CheckImage(patch.image, p.maxTextureSide).None?
    ensures var s := ApplySets(p, [SetOp(id, whole, g1), SetOp(id, patch, g2)]);
            s.panic.None? && s.painter.textures[id] == Texture(g2, None)
  {
    var sets := [SetOp(id, whole, g1), SetOp(id, patch, g2)];
    assert LastForId(sets, 1);
    LastDeltaWins(p, sets, 1);
  }

  /** The same frame with the corrected upload keeps the whole image's texture and size. */
  lemma FramePatchKeepsImage(p: Painter, id: TextureId, whole: ImageDelta, patch: ImageDelta, g1: nat, g2: nat)
    requires whole.pos.None? && patch.pos.Some?
    requires CheckImage(whole.image, p.maxTextureSide).None? && CheckImage(patch.image, p.maxTextureSide).None?
    ensures var s := ApplySetsKeepingImage(p, [SetOp(id, whole, g1), SetOp(id, patch, g2)]);
            s.panic.None? && s.painter.textures[id] == Texture(g1, Some((whole.image.width, whole.image.height)))
  {
    var sets := [SetOp(id, whole, g1), SetOp(id, patch, g2)];
    var first := SetTextureKeepingImage(p, id, whole, g1);
    assert first.panic.None? && first.painter.textures[id] == Texture(g1, Some((whole.image.width, whole.image.height)));
    var second := SetTextureKeepingImage(first.painter, id, patch, g2);
    assert second.panic.None? && second.painter.textures[id] == first.painter.textures[id];
    assert sets[1..] == [SetOp(id, patch, g2)] && sets[1..][1..] == [];
    assert ApplySetsKeepingImage(first.painter, sets[1..]) == ApplySetsKeepingImage(second.painter, []);
    assert ApplySetsKeepingImage(p, sets) == ApplySetsKeepingImage(first.painter, sets[1..]);
  }

  /**
   * `paint_and_update_textures`: every delta, then painting, then every
   * free. A mesh whose texture is unknown is skipped with a warning and
   * painting still succeeds.
   */
  function PaintAndUpdateTextures(p: Painter, sets: seq<SetOp>, prims: seq<Primitive>, frees: seq<TextureId>): (f: Frame)
    ensures var uploaded := ApplySets(p, sets);
            f.panic == uploaded.panic &&
            (f.panic.Some? ==> f.painter == uploaded.painter && f.draws == []) &&
            (f.panic.None? ==> f.draws == PaintPrimitives(uploaded.painter.textures, prims) &&
                               f.painter == FreeAll(uploaded.painter, frees))
    ensures f.panic.None? ==> f.painter.textures.Keys == (p.textures.Keys + IdsOf(sets)) - set i | 0 <= i < |frees| :: frees[i]
  {
    var uploaded := ApplySets(p, sets);
    if uploaded.panic.Some? then Frame(uploaded.painter, [], uploaded.panic)
    else Frame(FreeAll(uploaded.painter, frees), PaintPrimitives(uploaded.painter.textures, prims), None)
  }

  /** Meshes whose textures are all unknown draw nothing, and the frame still completes. */
  lemma UnknownTexturesDrawNothing(p: Painter, prims: seq<Primitive>, frees: seq<TextureId>)
    requires forall i :: 0 <= i < |prims| ==> prims[i].textureId !in p.textures
    ensures var f := PaintAndUpdateTextures(p, [], prims, frees);
            f.panic.None? && f.draws == [] && f.painter.textures.Keys == p.textures.Keys - set i | 0 <= i < |frees| :: frees[i]
  {
  }
}

=== FILE: events.dfy ===
/**
 * The ECS event handler: at most one writer per event type, each the
 * sending end of an unbounded channel whose receiving end is handed out as
 * a reader. A channel is modelled as the queue of events sent on it and not
 * yet read; it lives on after its writer is replaced, for as long as its
 * reader can drain it.
 */
module Events {
  import opened Wrappers
  import opened TypeIds

  type ChannelId = nat

  /** A boxed `EventWriter<E>`: the event type it was created for and its channel. */
  datatype Writer = Writer(tag: TypeTag, channel: ChannelId)

  /** An `EventReader<E>`. */
  datatype Reader = Reader(tag: TypeTag, channel: ChannelId)

  datatype Handler<V> = Handler(writers: map<TypeTag, Writer>, queues: map<ChannelId, seq<V>>, next: ChannelId) {
    predicate Valid() {
      && (forall t :: t in writers ==> writers[t].tag == t && writers[t].channel in queues)
      && (forall c :: c in queues ==> c < next)
    }
  }

  function New<V>(): (h: Handler<V>)
    ensures h.Valid() && h.writers == map[]
  {
    Handler(map[], map[], 0)
  }

  /**
   * `send::<E>`: delivered to E's current writer, if any; the downcast of the
   * boxed writer to `EventWriter<E>` is checked as in the code.
   */
  function Send<V>(h: Handler<V>, t: TypeTag, e: V): (h': Handler<V>)
    requires h.Valid()
    ensures h'.Valid() && h'.writers == h.writers && h'.next == h.next
    ensures t !in h.writers ==> h' == h
    ensures t in h.writers ==>
              var c := h.writers[t].channel;
              h'.queues == h.queues[c := h.queues[c] + [e]]
  {
    if t in h.writers && h.writers[t].tag == t then
      var c := h.writers[t].channel;
      h.(queues := h.queues[c := h.queues[c] + [e]])
    else h
  }

  datatype Pushed<V> = Pushed(handler: Handler<V>, reader: Reader)

  /** `push_writer::<E>`: a fresh channel; its writer replaces E's previous one. */
  function PushWriter<V>(h: Handler<V>, t: TypeTag): (p: Pushed<V>)
    requires h.Valid()
    ensures p.handler.Valid()
    ensures p.reader.tag == t && p.reader.channel !in h.queues
    ensures p.handler.writers == h.writers[t := Writer(t, p.reader.channel)]
    ensures p.handler.queues == h.queues[p.reader.channel := []]
  {
    var c := h.next;
    Pushed(Handler(h.writers[t := Writer(t, c)], h.queues[c := []], h.next + 1), Reader(t, c))
  }

  datatype Received<V> = Received(event: Option<V>, handler: Handler<V>)

  /** `EventReader::read`: `try_recv`, the oldest pending event or `None`. */
  function Read<V>(h: Handler<V>, r: Reader): (x: Received<V>)
    requires h.Valid()
    ensures x.handler.Valid() && x.handler.writers == h.writers
    ensures x.event.None? <==> r.channel !in h.queues || h.queues[r.channel] == []
    ensures x.event.None? ==> x.handler == h
    ensures x.event.Some? ==>
              && x.event.value == h.queues[r.channel][0]
              && x.handler.queues == h.queues[r.channel := h.queues[r.channel][1..]]
  {
    if r.channel in h.queues && h.queues[r.channel] != [] then
      Received(Some(h.queues[r.channel][0]), h.(queues := h.queues[r.channel := h.queues[r.channel][1..]]))
    else Received(None, h)
  }

  /** Sends every event of `es` in order. */
  function SendAll<V>(h: Handler<V>, t: TypeTag, es: seq<V>): (h': Handler<V>)
    requires h.Valid()
    ensures h'.Valid() && h'.writers == h.writers
    decreases |es|
  {
    if es == [] then h else SendAll(Send(h, t, es[0]), t, es[1..])
  }

  /** Sending a batch appends it, in order, to the current writer's queue only. */
  lemma {:induction false} SendAllAppends<V>(h: Handler<V>, t: TypeTag, es: seq<V>)
    requires h.Valid() && t in h.writers
    ensures var c := h.writers[t].channel;
            SendAll(h, t, es).queues == h.queues[c := h.queues[c] + es]
    decreases |es|
  {
    var c := h.writers[t].channel;
    if es != [] {
      var h1 := Send(h, t, es[0]);
      SendAllAppends(h1, t, es[1..]);
      assert SendAll(h, t, es) == SendAll(h1, t, es[1..]);
      assert h1.writers[t].channel == c && h1.queues[c] == h.queues[c] + [es[0]];
      assert h.queues[c] + [es[0]] + es[1..] == h.queues[c] + es;
      assert h1.queues[c] + es[1..] == h.queues[c] + es;
      assert h1.queues[c := h.queues[c] + es] == h.queues[c := h.queues[c] + es];
    } else {
      assert h.queues[c] + es == h.queues[c];
      assert h.queues[c := h.queues[c]] == h.queues;
    }
  }

  /** Reading `n` times. */
  function ReadN<V>(h: Handler<V>, r: Reader, n: nat): (x: (seq<V>, Handler<V>))
    requires h.Valid()
    ensures x.1.Valid()
    decreases n
  {
    if n == 0 then ([], h)
    else
      var got := Read(h, r);
      var rest := ReadN(got.handler, r, n - 1);
      match got.event
      case None => rest
      case Some(e) => ([e] + rest.0, rest.1)
  }

  /** A reader drains its queue first in, first out. */
  lemma {:induction false} ReadNDrains<V>(h: Handler<V>, r: Reader, n: nat)
    requires h.Valid() && r.channel in h.queues && n <= |h.queues[r.channel]|
    ensures ReadN(h, r, n).0 == h.queues[r.channel][..n]
    ensures ReadN(h, r, n).1.queues == h.queues[r.channel := h.queues[r.channel][n..]]
    decreases n
  {
    if n > 0 {
      var got := Read(h, r);
      ReadNDrains(got.handler, r, n - 1);
      var q := h.queues[r.channel];
      assert q[1..][..n - 1] == q[1..n];
      assert [q[0]] + q[1..n] == q[..n];
      assert q[1..][n - 1..] == q[n..];
      assert h.queues[r.channel := q[1..]][r.channel := q[n..]] == h.queues[r.channel := q[n..]];
    } else {
      assert h.queues[r.channel][0..] == h.queues[r.channel];
    }
  }

  /** Events sent after `push_writer` reach its reader in sending order, and then the reader is empty. */
  lemma PushSendRead<V>(h: Handler<V>, t: TypeTag, es: seq<V>)
    requires h.Valid()
    ensures var p := PushWriter(h, t);
            var h' := SendAll(p.handler, t, es);
            && ReadN(h', p.reader, |es|).0 == es
            && Read(ReadN(h', p.reader, |es|).1, p.reader).event == None
  {
    var p := PushWriter(h, t);
    var c := p.reader.channel;
    assert p.handler.writers[t].channel == c;
    var h' := SendAll(p.handler, t, es);
    SendAllAppends(p.handler, t, es);
    assert h'.queues[c] == es;
    ReadNDrains(h', p.reader, |es|);
    var x := ReadN(h', p.reader, |es|);
    assert x.0 == es[..|es|] == es;
    assert x.1.queues[c] == es[|es|..] == [];
  }

  /** After a second `push_writer::<E>`, the first reader gets nothing new and other types are unaffected. */
  lemma ReplacedWriterIsDeaf<V>(h: Handler<V>, t: TypeTag, u: TypeTag, e: V)
    requires h.Valid() && u != t
    ensures var p1 := PushWriter(h, t);
            var p2 := PushWriter(p1.handler, t);
            var h' := Send(p2.handler, t, e);
            && Read(h', p1.reader).event == None
            && Read(h', p2.reader).event == Some(e)
            && (u in h.writers ==> h'.queues[h.writers[u].channel] == h.queues[h.writers[u].channel])
  {
  }

  /** Sending with no writer registered changes nothing. */
  lemma SendWithoutWriter<V>(h: Handler<V>, t: TypeTag, e: V)
    requires h.Valid() && t !in h.writers
    ensures Send(h, t, e) == h
  {
  }
}

=== FILE: frame_loop.dfy ===
/**
 * The render context's event-loop holder and its fixed-timestep frame
 * scheduler. Time is counted in integer clock ticks: each `next_frame`
 * measures the time since the previous frame, clamps it to the maximum
 * frame time, fires one update per whole step accumulated, then one render
 * unless the window is occluded.
 */
module FrameLoop {
  import opened Wrappers

  /** The windowing event loop; only its identity matters here. */
  datatype EventLoop = EventLoop(id: nat)

  /** `EventLoopWrapper`; `NotPresent` is its default. */
  datatype EventLoopWrapper = Present(eventLoop: EventLoop) | NotPresent

  /** The `panic!` both accessors raise when the loop is gone. */
  datatype Panic = EventLoopNotPresent

  datatype Taken = Taken(result: Result<EventLoop, Panic>, wrapper: EventLoopWrapper)

  /** `take`: moves the loop out, leaving `NotPresent`; taking twice panics. */
  function Take(w: EventLoopWrapper): (t: Taken)
    ensures t.wrapper == NotPresent
    ensures t.result.Ok? <==> w.Present?
    ensures t.result.Ok? ==> t.result.value == w.eventLoop
  {
    match w
    case NotPresent => Taken(Err(EventLoopNotPresent), NotPresent)
    case Present(e) => Taken(Ok(e), NotPresent)
  }

  /** `as_ref`: borrows the loop, panicking when it is not there. */
  function AsRef(w: EventLoopWrapper): (r: Result<EventLoop, Panic>)
    ensures r.Ok? <==> w.Present?
    ensures r.Ok? ==> r.value == w.eventLoop
  {
    match w
    case NotPresent => Err(EventLoopNotPresent)
    case Present(e) => Ok(e)
  }

  /** The event loop can be taken once: a second take or any later borrow panics. */
  lemma TakeOnce(w: EventLoopWrapper)
    requires w.Present?
    ensures Take(w).result == Ok(w.eventLoop)
    ensures Take(Take(w).wrapper).result == Err(EventLoopNotPresent)
    ensures AsRef(Take(w).wrapper) == Err(EventLoopNotPresent)
  {
  }

  /** The events `next_frame` hands to its runner (resizes come from the event loop itself). */
  datatype ContextEvent = UpdateEvent | RenderEvent

  /** The scheduling state of `Context`, all durations and instants in ticks. */
  datatype Context = Context(
    maxFrameTime: nat,
    exitNextIteration: bool,
    windowOccluded: bool,
    fixedTimeStep: nat,
    numberOfUpdates: nat,
    numberOfRenders: nat,
    lastFrameTime: nat,
    runningTime: nat,
    accumulatedTime: nat,
    blendingFactor: real,
    previousInstant: nat,
    currentInstant: nat)
  {
    /** Every tick run so far is either spent in an update or still accumulated, and less than a step is pending. */
    predicate Consistent() {
      && fixedTimeStep > 0
      && numberOfUpdates * fixedTimeStep + accumulatedTime == runningTime
      && accumulatedTime < fixedTimeStep
    }
  }

  /** A freshly built context at instant `now`, stepping every `step` ticks. */
  function NewContext(maxFrameTime: nat, step: nat, now: nat): (c: Context)
    requires step > 0
    ensures c.Consistent() && c.numberOfUpdates == 0 && c.numberOfRenders == 0
  {
    Context(maxFrameTime, false, false, step, 0, 0, 0, 0, 0, 0.0, now, now)
  }

  /** `duration_since`, which saturates at zero, clamped to the maximum frame time. */
  function Elapsed(c: Context, now: nat): (e: nat)
    ensures e <= c.maxFrameTime
    ensures now >= c.previousInstant ==> e == if now - c.previousInstant > c.maxFrameTime then c.maxFrameTime else now - c.previousInstant
    ensures now < c.previousInstant ==> e == 0
  {
    var d := if now >= c.previousInstant then now - c.previousInstant else 0;
    if d > c.maxFrameTime then c.maxFrameTime else d
  }

  lemma DivModUnique(a: nat, step: nat, n: nat, r: nat)
    requires step > 0 && a == n * step + r && r < step
    ensures n == a / step && r == a % step
  {
    var q, m := a / step, a % step;
    MulDistributes(q, 1, step);
    MulDistributes(n, 1, step);
    MulCancel(q, n + 1, step);
    MulCancel(n, q + 1, step);
  }

  /** Multiplication by a positive step is strictly monotone. */
  lemma MulCancel(x: nat, y: nat, step: nat)
    requires step > 0 && x * step < y * step
    ensures x < y
  {
  }

  lemma MulDistributes(u: nat, k: nat, step: nat)
    ensures (u + k) * step == u * step + k * step
  {
  }

  /**
   * The update loop of `next_frame`: one update event per whole step in the
   * accumulated time, each taking a step off it.
   */
  method RunUpdates(c: Context) returns (c': Context, fired: nat, events: seq<ContextEvent>)
    requires c.fixedTimeStep > 0
    ensures fired == c.accumulatedTime / c.fixedTimeStep
    ensures c' == c.(accumulatedTime := c.accumulatedTime % c.fixedTimeStep, numberOfUpdates := c.numberOfUpdates + fired)
    ensures events == seq(fired, _ => UpdateEvent)
  {
    c' := c;
    events := [];
    fired := 0;
    while c'.accumulatedTime >= c'.fixedTimeStep
      invariant fired * c.fixedTimeStep + c'.accumulatedTime == c.accumulatedTime
      invariant c' == c.(accumulatedTime := c'.accumulatedTime, numberOfUpdates := c.numberOfUpdates + fired)
      invariant events == seq(fired, _ => UpdateEvent)
      decreases c'.accumulatedTime
    {
      events := events + [UpdateEvent];
      c' := c'.(accumulatedTime := c'.accumulatedTime - c'.fixedTimeStep, numberOfUpdates := c'.numberOfUpdates + 1);
      fired := fired + 1;
      MulDistributes(fired - 1, 1, c.fixedTimeStep);
    }
    DivModUnique(c.accumulatedTime, c.fixedTimeStep, fired, c'.accumulatedTime);
  }

  /**
   * `next_frame` at instant `now`. Returns whether the loop goes on, the new
   * state and the events fired, in order.
   */
  method NextFrame(c: Context, now: nat) returns (goOn: bool, c': Context, events: seq<ContextEvent>)
    requires c.fixedTimeStep > 0
    ensures c.exitNextIteration ==> !goOn && c' == c && events == []
    ensures !c.exitNextIteration ==>
              var e := Elapsed(c, now);
              var total := c.accumulatedTime + e;
              var updates := total / c.fixedTimeStep;
              && goOn
              && c'.lastFrameTime == e
              && c'.runningTime == c.runningTime + e
              && c'.accumulatedTime == total % c.fixedTimeStep
              && c'.numberOfUpdates == c.numberOfUpdates + updates
              && c'.blendingFactor == c'.accumulatedTime as real / c.fixedTimeStep as real
              && c'.numberOfRenders == c.numberOfRenders + (if c.windowOccluded then 0 else 1)
              && events == seq(updates, _ => UpdateEvent) + (if c.windowOccluded then [] else [RenderEvent])
              && c'.previousInstant == now && c'.currentInstant == now
              && c'.fixedTimeStep == c.fixedTimeStep && c'.maxFrameTime == c.maxFrameTime
              && c'.windowOccluded == c.windowOccluded && !c'.exitNextIteration
    ensures c'.accumulatedTime < c.fixedTimeStep || c' == c
    ensures c.Consistent() ==> c'.Consistent()
  {
    if c.exitNextIteration {
      return false, c, [];
    }
    c' := c.(currentInstant := now);
    var e := Elapsed(c, now);
    c' := c'.(lastFrameTime := e, runningTime := c'.runningTime + e, accumulatedTime := c'.accumulatedTime + e);
    var fired;
    c', fired, events := RunUpdates(c');
    c' := c'.(blendingFactor := c'.accumulatedTime as real / c'.fixedTimeStep as real);
    if !c.windowOccluded {
      events := events + [RenderEvent];
      c' := c'.(numberOfRenders := c'.numberOfRenders + 1);
    }
    c' := c'.(previousInstant := c'.currentInstant);
    MulDistributes(c.numberOfUpdates, fired, c.fixedTimeStep);
    goOn := true;
  }
}

=== FILE: gui_painter.dfy ===
/**
 * The render crate's egui painter: a map from egui texture ids to GL
 * textures, native texture registration, texture uploads guarded by
 * assertions, the per-frame order "upload, paint, free", and the integer
 * scissor clamp.
 */
module GuiPainter {
  import opened Wrappers
  import opened Textures

  /**
   * `set_texture`: the entry for `id` is created first, holding a texture
   * freshly named `generated` by `glGenTextures`, and only then are the
   * image's assertions checked, so the entry exists even when one of them
   * fails. The image is then uploaded into that same texture.
   */
  function SetTexture(p: Painter, id: TextureId, delta: ImageDelta, generated: nat): (s: Step)
    ensures id in s.painter.textures
    ensures forall k :: k != id ==> (k in s.painter.textures <==> k in p.textures)
    ensures forall k :: k != id && k in p.textures ==> s.painter.textures[k] == p.textures[k]
    ensures s.painter.textures[id].glName == (if id in p.textures then p.textures[id].glName else generated)
    ensures s.panic.Some? ==> s.painter.textures[id] == (if id in p.textures then p.textures[id] else Texture(generated, None))
    ensures s.panic.None? && delta.pos.None? ==> s.painter.textures[id].storage == Some((delta.image.width, delta.image.height))
    ensures delta.pos.Some? ==> s.painter.textures[id].storage == (if id in p.textures then p.textures[id].storage else None)
    ensures s.panic.None? <==>
              (delta.image.width * delta.image.height == delta.image.texels &&
               delta.image.width <= p.maxTextureSide && delta.image.height <= p.maxTextureSide)
    ensures s.panic != Some(ByteLengthMismatch)
    ensures s.painter.nextNativeTexId == p.nextNativeTexId && s.painter.texturesToDestroy == p.texturesToDestroy
    ensures s.painter.maxTextureSide == p.maxTextureSide
  {
    var entry := if id in p.textures then p.textures[id] else Texture(generated, None);
    var created := p.(textures := p.textures[id := entry]);
    var check := CheckImage(delta.image, p.maxTextureSide);
    if check.Some? then Step(created, check)
    else Step(created.(textures := created.textures[id := Upload(entry, delta)]), None)
  }

  /** A patch lands in the texture a whole image gave storage to: the texture keeps its name and size. */
  lemma PatchKeepsImage(p: Painter, id: TextureId, whole: ImageDelta, patch: ImageDelta, g1: nat, g2: nat)
    requires whole.pos.None? && patch.pos.Some?
    requires CheckImage(whole.image, p.maxTextureSide).None?
    ensures var s1 := SetTexture(p, id, whole, g1);
            var s2 := SetTexture(s1.painter, id, patch, g2);
            s2.painter.textures[id] == s1.painter.textures[id] &&
            s2.painter.textures[id].storage == Some((whole.image.width, whole.image.height))
  {
  }

  /** The upload loop of a frame: each delta in order, stopping at the first failed assertion. */
  function ApplySets(p: Painter, sets: seq<SetOp>): (s: Step)
    ensures s.panic.None? <==> forall i :: 0 <= i < |sets| ==> CheckImage(sets[i].delta.image, p.maxTextureSide).None?
    ensures s.panic.None? ==> forall i :: 0 <= i < |sets| ==> sets[i].id in s.painter.textures
    ensures s.painter.textures.Keys >= p.textures.Keys
    ensures s.panic.None? ==> s.painter.textures.Keys == p.textures.Keys + IdsOf(sets)
    ensures s.painter.maxTextureSide == p.maxTextureSide && s.painter.nextNativeTexId == p.nextNativeTexId
    ensures s.painter.texturesToDestroy == p.texturesToDestroy
    decreases |sets|
  {
    if sets == [] then Step(p, None)
    else
      var first := SetTexture(p, sets[0].id, sets[0].delta, sets[0].generated);
      if first.panic.Some? then first
      else
        var rest := ApplySets(first.painter, sets[1..]);
        assert sets == [sets[0]] + sets[1..];
        rest
  }

  /**
   * Uploads go into the texture already mapped: every id mapped before the
   * loop keeps its GL name, whether it stops early or not, and an id no
   * delta names keeps its texture unchanged.
   */
  lemma {:induction false} ApplySetsKeepsNames(p: Painter, sets: seq<SetOp>, k: TextureId)
    requires k in p.textures
    ensures var s := ApplySets(p, sets);
            k in s.painter.textures && s.painter.textures[k].glName == p.textures[k].glName &&
            (k !in IdsOf(sets) ==> s.painter.textures[k] == p.textures[k])
    decreases |sets|
  {
    if sets != [] {
      var first := SetTexture(p, sets[0].id, sets[0].delta, sets[0].generated);
      if first.panic.None? {
        assert sets[0] in sets;
        assert k !in IdsOf(sets) ==> k !in IdsOf(sets[1..]) by {
          forall op | op in sets[1..] ensures op in sets { }
        }
        ApplySetsKeepsNames(first.painter, sets[1..], k);
      }
    }
  }

  /** Apply the deltas, paint every primitive, then free the textures egui no longer needs. */
  function PaintAndUpdateTextures(p: Painter, sets: seq<SetOp>, prims: seq<Primitive>, frees: seq<TextureId>): (f: Frame)
    ensures var uploaded := ApplySets(p, sets);
            f.panic == uploaded.panic &&
            (f.panic.Some? ==> f.painter == uploaded.painter && f.draws == []) &&
            (f.panic.None? ==> f.draws == PaintPrimitives(uploaded.painter.textures, prims) &&
                               f.painter == FreeAll(uploaded.painter, frees))
    ensures f.panic.Some? ==> f.painter.textures.Keys >= p.textures.Keys
    ensures f.panic.None? ==> forall i :: 0 <= i < |sets| && sets[i].id !in frees ==> sets[i].id in f.painter.textures
    ensures f.panic.None? ==> f.painter.textures.Keys == (p.textures.Keys + IdsOf(sets)) - set i | 0 <= i < |frees| :: frees[i]
  {
    var uploaded := ApplySets(p, sets);
    if uploaded.panic.Some? then Frame(uploaded.painter, [], uploaded.panic)
    else Frame(FreeAll(uploaded.painter, frees), PaintPrimitives(uploaded.painter.textures, prims), None)
  }

  /**
   * Frees come after painting: a texture uploaded and freed in the same
   * frame is still drawn by that frame's meshes, and is gone afterwards.
   */
  lemma {:induction false} FreedTextureStillDrawn(p: Painter, sets: seq<SetOp>, prims: seq<Primitive>, frees: seq<TextureId>, i: nat, j: nat)
    requires i < |prims| && j < |frees| && prims[i].textureId == frees[j]
    requires exists k :: 0 <= k < |sets| && sets[k].id == frees[j]
    requires forall k :: 0 <= k < |sets| ==> CheckImage(sets[k].delta.image, p.maxTextureSide).None?
    ensures var f := PaintAndUpdateTextures(p, sets, prims, frees);
            f.panic.None? && frees[j] !in f.painter.textures &&
            exists t :: Draw(t, prims[i].indexCount) in f.draws
  {
    var uploaded := ApplySets(p, sets);
    assert prims[i].textureId in uploaded.painter.textures;
    PresentTextureIsDrawn(uploaded.painter.textures, prims, i);
  }

  // ----- scissor rectangle -----

  const Pow31: int := 0x8000_0000
  const Pow32: int := 0x1_0000_0000

  /** Rust's `u32 as i32`: values from 2^31 up wrap to negatives. */
  function U32AsI32(u: nat): (r: int)
    requires u < Pow32
    ensures -Pow31 <= r < Pow31
    ensures u < Pow31 ==> r == u
    ensures u >= Pow31 ==> r < 0
  {
    if u < Pow31 then u else u - Pow32
  }

  /** `i32::clamp`, which panics when its lower bound exceeds its upper bound. */
  function Clamp(x: int, lo: int, hi: int): (r: Result<int, Panic>)
    ensures r.Ok? <==> lo <= hi
    ensures r.Ok? ==> lo <= r.value <= hi
    ensures r.Ok? && lo <= x <= hi ==> r.value == x
    ensures r.Err? ==> r.error == ClampBoundsInverted
  {
    if lo > hi then Err(ClampBoundsInverted)
    else if x < lo then Ok(lo)
    else if x > hi then Ok(hi)
    else Ok(x)
  }

  /** The arguments passed to `glScissor`: lower-left corner, width and height. */
  datatype Scissor = Scissor(x: int, y: int, width: int, height: int)

  predicate IsI32(x: int) { -Pow31 <= x < Pow31 }

  /**
   * `set_clip_rect` after rounding: the clip rectangle's corners (already
   * in whole pixels, y downwards) clamped to the screen, then flipped to
   * GL's upward y.
   */
  function SetClipRect(width: nat, height: nat, minX: int, minY: int, maxX: int, maxY: int): (r: Result<Scissor, Panic>)
    requires width < Pow32 && height < Pow32
    requires IsI32(minX) && IsI32(minY) && IsI32(maxX) && IsI32(maxY)
    ensures r.Ok? <==> width < Pow31 && height < Pow31
    ensures r.Ok? ==> 0 <= r.value.x && 0 <= r.value.width && r.value.x + r.value.width <= width
    ensures r.Ok? ==> 0 <= r.value.y && 0 <= r.value.height && r.value.y + r.value.height <= height
  {
    var w := U32AsI32(width);
    var h := U32AsI32(height);
    var x0 :- Clamp(minX, 0, w);
    var y0 :- Clamp(minY, 0, h);
    // The lower bounds are now inside [0, w] and [0, h], so these clamps cannot panic.
    var x1 := Clamp(maxX, x0, w).value;
    var y1 := Clamp(maxY, y0, h).value;
    Ok(Scissor(x0, h - y1, x1 - x0, y1 - y0))
  }

  /** A clip rectangle already inside the screen reaches GL unchanged, only flipped. */
  lemma ClipInsideScreenIsKept(width: nat, height: nat, minX: int, minY: int, maxX: int, maxY: int)
    requires width < Pow31 && height < Pow31
    requires 0 <= minX <= maxX <= width && 0 <= minY <= maxY <= height
    ensures SetClipRect(width, height, minX, minY, maxX, maxY) == Ok(Scissor(minX, height - maxY, maxX - minX, maxY - minY))
  {
  }
}

=== FILE: locks.dfy ===
/**
 * The per-cell reader/writer lock of `parking_lot::RwLock`, as plain data.
 * Only the non-blocking `try_read` / `try_write` attempts are modelled: the
 * engine never waits on a cell, it fails instead.
 */
module Locks {
  import opened Wrappers

  datatype LockState = LockState(readers: nat, writer: bool) {
    /** At most one writer, or any number of readers, never both. */
    predicate Valid() { !(writer && readers > 0) }

    predicate IsFree() { readers == 0 && !writer }
  }

  const Unlocked := LockState(0, false)

  /** `try_read`: succeeds unless a writer holds the lock. */
  function TryRead(l: LockState): (r: Option<LockState>)
    ensures r.Some? <==> !l.writer
    ensures r.Some? ==> r.value.readers == l.readers + 1 && !r.value.writer
  {
    if l.writer then None else Some(LockState(l.readers + 1, false))
  }

  /** `try_write`: succeeds only when nobody holds the lock. */
  function TryWrite(l: LockState): (r: Option<LockState>)
    ensures r.Some? <==> l.IsFree()
    ensures r.Some? ==> r.value.writer && r.value.readers == 0
  {
    if l.IsFree() then Some(LockState(0, true)) else None
  }

  /** Dropping a read guard. */
  function ReleaseRead(l: LockState): (r: LockState)
    requires l.readers > 0
    ensures r.readers + 1 == l.readers && r.writer == l.writer
  {
    l.(readers := l.readers - 1)
  }

  /** Dropping a write guard. */
  function ReleaseWrite(l: LockState): (r: LockState)
    requires l.writer
    ensures !r.writer && r.readers == l.readers
  {
    l.(writer := false)
  }

  /** Every lock transition keeps readers and the writer mutually exclusive. */
  lemma TransitionsKeepExclusion(l: LockState)
    requires l.Valid()
    ensures TryRead(l).Some? ==> TryRead(l).value.Valid()
    ensures TryWrite(l).Some? ==> TryWrite(l).value.Valid()
    ensures l.readers > 0 ==> ReleaseRead(l).Valid()
    ensures l.writer ==> ReleaseWrite(l).Valid() && ReleaseWrite(l).IsFree()
  {
  }

  /** A held read lock makes every write attempt fail, and vice versa. */
  lemma ReaderExcludesWriter(l: LockState)
    ensures l.readers > 0 ==> TryWrite(l).None?
    ensures l.writer ==> TryRead(l).None? && TryWrite(l).None?
  {
  }
}

=== FILE: logger.dfy ===
/**
 * The engine's logger: records at or below the configured level are printed
 * as `LEVEL target > message`, the target cut at its first `::` and padded
 * to the widest target seen so far. Colours and the process-wide atomics
 * are modelled as plain text and an explicit width state.
 */
module Logger {
  import opened Wrappers

  /** `log::Level`, most severe first. */
  datatype Level = Error | Warn | Info | Debug | Trace

  /** The discriminants `log` compares levels by. */
  function Rank(l: Level): (r: nat)
    ensures 1 <= r <= 5
  {
    match l
    case Error => 1
    case Warn => 2
    case Info => 3
    case Debug => 4
    case Trace => 5
  }

  datatype FlatboxLogger = FlatboxLogger(logLevel: Level)

  /** `FlatboxLogger::default()`; the build profile decides. */
  function DefaultLogger(debugAssertions: bool): (l: FlatboxLogger)
    ensures debugAssertions ==> l.logLevel == Debug
    ensures !debugAssertions ==> l.logLevel == Info
  {
    FlatboxLogger(if debugAssertions then Debug else Info)
  }

  /** `Log::enabled`: the record is at most as verbose as the configured level. */
  predicate Enabled(logger: FlatboxLogger, level: Level)
  {
    Rank(level) <= Rank(logger.logLevel)
  }

  /** The whole `::` separator starts at index `i` of `s`. */
  predicate SeparatorAt(s: string, i: int)
  {
    0 <= i && i + 1 < |s| && s[i] == ':' && s[i + 1] == ':'
  }

  predicate ContainsSeparator(s: string)
  {
    exists i :: 0 <= i < |s| && SeparatorAt(s, i)
  }

  /** The first index at or after `from` where the separator starts. */
  function FindSeparator(s: string, from: nat): (r: Option<nat>)
    ensures r.Some? ==> from <= r.value && SeparatorAt(s, r.value)
    ensures r.Some? ==> forall j :: from <= j < r.value ==> !SeparatorAt(s, j)
    ensures r.None? ==> forall j :: from <= j ==> !SeparatorAt(s, j)
    decreases |s| - from
  {
    if from + 1 >= |s| then None
    else if s[from] == ':' && s[from + 1] == ':' then Some(from)
    else FindSeparator(s, from + 1)
  }

  /** `split_target`: the part before the first `::`, or the whole target. */
  function SplitTarget(target: string): (r: string)
    ensures r <= target
    ensures !ContainsSeparator(r)
    ensures r == target <==> !ContainsSeparator(target)
    ensures r != target ==> SeparatorAt(target, |r|)
  {
    match FindSeparator(target, 0)
    case None => target
    case Some(i) =>
      assert forall j :: SeparatorAt(target[..i], j) ==> SeparatorAt(target, j);
      assert !SeparatorAt(target[..i], i);
      target[..i]
  }

  /** `max_target_width`: the stored width grows to the target's length if that is larger. */
  function MaxTargetWidth(stored: nat, target: string): (r: (nat, nat))
    ensures r.0 == r.1
    ensures r.0 >= stored && r.0 >= |target|
    ensures r.0 == stored || r.0 == |target|
  {
    if stored < |target| then (|target|, |target|) else (stored, stored)
  }

  /** `colored_level`, without the colour: a five-column label. */
  function LevelLabel(level: Level): (s: string)
    ensures |s| == 5
  {
    match level
    case Trace => "TRACE"
    case Debug => "DEBUG"
    case Info => "INFO "
    case Warn => "WARN "
    case Error => "ERROR"
  }

  /** `Padded`: left-aligned, filled with spaces up to `width`. */
  function Pad(s: string, width: nat): (r: string)
    ensures |r| == if |s| < width then width else |s|
    ensures s <= r
    ensures forall i :: |s| <= i < |r| ==> r[i] == ' '
  {
    if |s| < width then s + seq(width - |s|, _ => ' ') else s
  }

  datatype Record = Record(level: Level, target: string, message: string)

  /** One call of `log`: the line printed, if any, and the new widest-target width. */
  datatype Logged = Logged(line: Option<string>, width: nat)

  function Log(logger: FlatboxLogger, width: nat, record: Record): (o: Logged)
    ensures o.line.Some? <==> Enabled(logger, record.level)
    ensures o.line.None? ==> o.width == width
    ensures o.width >= width
    ensures o.line.Some? ==>
              var target := SplitTarget(record.target);
              && o.width >= |target|
              && (o.width == width || o.width == |target|)
              && |o.line.value| == o.width + 9 + |record.message|
              && o.line.value[..6] == LevelLabel(record.level) + " "
              && o.line.value[6..6 + |target|] == target
              && (forall i :: 6 + |target| <= i < 6 + o.width ==> o.line.value[i] == ' ')
              && o.line.value[6 + o.width..9 + o.width] == " > "
              && o.line.value[9 + o.width..] == record.message
  {
    if Enabled(logger, record.level) then
      var target := SplitTarget(record.target);
      var (w, stored) := MaxTargetWidth(width, target);
      var padded := Pad(target, w);
      var line := LevelLabel(record.level) + " " + padded + " > " + record.message;
      assert line[6..6 + |padded|] == padded;
      Logged(Some(line), stored)
    else Logged(None, width)
  }

  /** The level a five-column label stands for. */
  function LevelOfLabel(text: string): (r: Option<Level>)
    ensures r.Some? ==> LevelLabel(r.value) == text
    ensures r.None? <==> forall l :: LevelLabel(l) != text
  {
    if text == "TRACE" then Some(Trace)
    else if text == "DEBUG" then Some(Debug)
    else if text == "INFO " then Some(Info)
    else if text == "WARN " then Some(Warn)
    else if text == "ERROR" then Some(Error)
    else None
  }

  /**
   * Reading a printed line back, given the target column width it was
   * printed with: the level, the padded target column and the message.
   */
  function ParseLine(line: string, width: nat): Option<(Level, string, string)>
  {
    if |line| < width + 9 || line[5] != ' ' || line[6 + width..9 + width] != " > " then None
    else match LevelOfLabel(line[..5])
      case None => None
      case Some(level) => Some((level, line[6..6 + width], line[9 + width..]))
  }

  /**
   * Every printed line splits back into the record's level, its target cut
   * at `::` and padded to the new width, and its whole message.
   */
  lemma LogLineParses(logger: FlatboxLogger, width: nat, record: Record)
    requires Enabled(logger, record.level)
    ensures var o := Log(logger, width, record);
            ParseLine(o.line.value, o.width) == Some((record.level, Pad(SplitTarget(record.target), o.width), record.message))
  {
    var o := Log(logger, width, record);
    var line := o.line.value;
    var target := SplitTarget(record.target);
    var padded := Pad(target, o.width);
    assert line[..5] == line[..6][..5] == LevelLabel(record.level);
    LabelsDistinct(record.level, LevelOfLabel(line[..5]).value);
    assert line[6..6 + o.width] == padded by {
      assert line[6..6 + o.width][..|target|] == line[6..6 + |target|];
    }
  }

  /** Level labels tell every level apart. */
  lemma LabelsDistinct(a: Level, b: Level)
    ensures LevelLabel(a) == LevelLabel(b) <==> a == b
  {
  }

  /** Filtering is monotone: a logger that prints a level prints every more severe one. */
  lemma EnabledMonotone(logger: FlatboxLogger, a: Level, b: Level)
    requires Rank(a) <= Rank(b) && Enabled(logger, b)
    ensures Enabled(logger, a)
  {
  }

  /** Record `i` is printed and its target, cut at `::`, is `w` characters long. */
  predicate PrintedWithWidth(logger: FlatboxLogger, records: seq<Record>, i: int, w: nat)
  {
    0 <= i < |records| && Enabled(logger, records[i].level) && |SplitTarget(records[i].target)| == w
  }

  /** One call's effect on the width: unchanged unless the record is printed, then the larger of the two. */
  lemma LogWidth(logger: FlatboxLogger, width: nat, record: Record)
    ensures var w := Log(logger, width, record).width;
            && w >= width
            && (Enabled(logger, record.level) ==> w >= |SplitTarget(record.target)|)
            && (w == width || (Enabled(logger, record.level) && w == |SplitTarget(record.target)|))
  {
  }

  /** The target column is as wide as every target printed before, so later columns line up. */
  lemma {:induction false} WidthCoversHistory(logger: FlatboxLogger, width: nat, records: seq<Record>)
    ensures var w := LogAll(logger, width, records);
            && w >= width
            && forall i :: 0 <= i < |records| && Enabled(logger, records[i].level) ==>
                 w >= |SplitTarget(records[i].target)|
    decreases |records|
  {
    if records != [] {
      var first := Log(logger, width, records[0]);
      LogWidth(logger, width, records[0]);
      WidthCoversHistory(logger, first.width, records[1..]);
      forall i | 1 <= i < |records| && Enabled(logger, records[i].level)
        ensures LogAll(logger, width, records) >= |SplitTarget(records[i].target)|
      {
        assert records[i] == records[1..][i - 1];
      }
    }
  }

  /**
   * The target column is no wider than it must be: after a run of records
   * it is the starting width or the length of some printed target.
   */
  lemma {:induction false} WidthFromHistory(logger: FlatboxLogger, width: nat, records: seq<Record>)
    ensures var w := LogAll(logger, width, records);
            w == width || exists i :: PrintedWithWidth(logger, records, i, w)
    decreases |records|
  {
    if records != [] {
      var first := Log(logger, width, records[0]);
      var rest := records[1..];
      var w := LogAll(logger, width, records);
      LogWidth(logger, width, records[0]);
      WidthFromHistory(logger, first.width, rest);
      if w != width {
        if w == first.width {
          assert PrintedWithWidth(logger, records, 0, w);
        } else {
          var i :| PrintedWithWidth(logger, rest, i, w);
          assert records[i + 1] == rest[i];
          assert PrintedWithWidth(logger, records, i + 1, w);
        }
      }
    }
  }

  /** The width state after logging every record in turn. */
  function LogAll(logger: FlatboxLogger, width: nat, records: seq<Record>): nat
    decreases |records|
  {
    if records == [] then width else LogAll(logger, Log(logger, width, records[0]).width, records[1..])
  }
}

=== FILE: mesh.dfy ===
/**
 * `Mesh` and `MeshType`: vertex and index data plus the GPU objects created
 * for them. The GPU objects are never cloned and never serialized: a clone
 * or a deserialized mesh starts without them.
 */
module Mesh {
  import opened Wrappers

  newtype u32 = x: int | 0 <= x < 0x1_0000_0000

  /** One vertex: position, normal and texture coordinate. */
  datatype Vertex = Vertex(position: (real, real, real), normal: (real, real, real), texcoord: (real, real))

  datatype MeshType =
    | Plane
    | Cube
    | Icosahedron
    | Sphere
    | Loaded(path: string)
    | Generic

  /** `#[default]` on `MeshType`. */
  function DefaultMeshType(): (t: MeshType)
    ensures t.Cube?
  {
    Cube
  }

  /** The name of an OpenGL object (vertex array or buffer). */
  type GlName = nat

  /**
   * A mesh. `prepared` is set by the renderer's prepare command; like the
   * GPU objects it describes GPU-side state and is not carried by clones or
   * serialization.
   */
  datatype Mesh = Mesh(
    vertexData: seq<Vertex>,
    indexData: seq<u32>,
    vertexArray: Option<GlName>,
    vertexBuffer: Option<GlName>,
    indexBuffer: Option<GlName>,
    prepared: bool)
  {
    predicate HasNoGpuState() {
      vertexArray.None? && vertexBuffer.None? && indexBuffer.None? && !prepared
    }
  }

  /** What serde sees of a mesh: the fields not marked `#[serde(skip)]`. */
  datatype MeshData = MeshData(vertexData: seq<Vertex>, indexData: seq<u32>)

  /** `Mesh::new`: copies both slices and creates no GPU objects. */
  function New(vertices: seq<Vertex>, indices: seq<u32>): (m: Mesh)
    ensures m.vertexData == vertices && m.indexData == indices
    ensures m.HasNoGpuState()
  {
    Mesh(vertices, indices, None, None, None, false)
  }

  /** `Clone for Mesh`: keeps the data, drops every GPU object. */
  function Clone(m: Mesh): (c: Mesh)
    ensures c.vertexData == m.vertexData && c.indexData == m.indexData
    ensures c.HasNoGpuState()
  {
    New(m.vertexData, m.indexData)
  }

  /** Serializing a mesh writes only its data. */
  function ToData(m: Mesh): MeshData
  {
    MeshData(m.vertexData, m.indexData)
  }

  /** Deserializing a mesh: skipped fields take their default, `None`. */
  function FromData(d: MeshData): (m: Mesh)
    ensures ToData(m) == d
    ensures m.HasNoGpuState()
  {
    New(d.vertexData, d.indexData)
  }

  /** A serde round trip is a clone: same data, no GPU state. */
  lemma SerdeRoundTripIsClone(m: Mesh)
    ensures FromData(ToData(m)) == Clone(m)
    ensures m.HasNoGpuState() ==> FromData(ToData(m)) == m
  {
  }

  /** Cloning a clone changes nothing more. */
  lemma CloneIdempotent(m: Mesh)
    ensures Clone(Clone(m)) == Clone(m)
  {
  }
}

=== FILE: model.dfy ===
/**
 * `Model`: a mesh type plus an optional mesh, with the hand-written serde
 * implementation. Serialization writes the two fields `mesh_type` and
 * `mesh`; the mesh is written only for `Generic` models, every other mesh
 * type being rebuilt on load. Deserialization accepts the struct in map form
 * (field names and values) and in sequence form (values by position).
 *
 * `Mesh::cube()` is not part of this model: the mesh it builds is passed in
 * as `cube`.
 */
module Models {
  import opened Wrappers
  import opened Mesh

  datatype Model = Model(meshType: MeshType, mesh: Option<Mesh>)

  /** The serde errors the visitor raises; `Unsupported` stands for its `todo!()` panic. */
  datatype DeError =
    | InvalidLength(len: nat)
    | DuplicateField(field: string)
    | MissingField(field: string)
    | UnknownField(field: string)
    | InvalidType
    | Unsupported(meshType: MeshType)

  /** A serialized field value: a mesh type, or an optional mesh. */
  datatype Value = MeshTypeValue(meshType: MeshType) | MeshValue(mesh: Option<MeshData>)

  datatype Field = Field(key: string, value: Value)

  const MeshTypeKey := "mesh_type"
  const MeshKey := "mesh"

  /** `Model::cube()`. */
  function CubeModel(cube: Mesh): (m: Model)
    ensures m.meshType == Cube && m.mesh == Some(cube)
  {
    Model(Cube, Some(cube))
  }

  function MapMesh(m: Option<MeshData>): Option<Mesh>
  {
    match m
    case None => None
    case Some(d) => Some(FromData(d))
  }

  /** `Serialize for Model`: `mesh_type`, then `mesh`, which is `None` unless the type is `Generic`. */
  function Serialize(m: Model): (fields: seq<Field>)
    ensures |fields| == 2
    ensures fields[0] == Field(MeshTypeKey, MeshTypeValue(m.meshType))
    ensures fields[1].key == MeshKey && fields[1].value.MeshValue?
    ensures fields[1].value.mesh.Some? <==> m.meshType == Generic && m.mesh.Some?
  {
    var mesh := if m.meshType == Generic && m.mesh.Some? then Some(ToData(m.mesh.value)) else None;
    [Field(MeshTypeKey, MeshTypeValue(m.meshType)), Field(MeshKey, MeshValue(mesh))]
  }

  /** Sequence form of the serialized struct: the field values in order. */
  function Values(fields: seq<Field>): (vs: seq<Value>)
    ensures |vs| == |fields|
    ensures forall i :: 0 <= i < |fields| ==> vs[i] == fields[i].value
  {
    if fields == [] then [] else [fields[0].value] + Values(fields[1..])
  }

  // ---------------------------------------------------------------------
  // Map form
  // ---------------------------------------------------------------------

  /** The two `Option` slots `visit_map` fills while it reads keys. */
  datatype Slots = Slots(meshType: Option<MeshType>, mesh: Option<Option<MeshData>>)

  /** The `while let Some(key)` loop of `visit_map`. */
  function ScanFields(fields: seq<Field>, acc: Slots): Result<Slots, DeError>
    decreases |fields|
  {
    if fields == [] then Ok(acc)
    else
      var f := fields[0];
      if f.key == MeshTypeKey then
        if acc.meshType.Some? then Err(DuplicateField(MeshTypeKey))
        else if !f.value.MeshTypeValue? then Err(InvalidType)
        else ScanFields(fields[1..], acc.(meshType := Some(f.value.meshType)))
      else if f.key == MeshKey then
        if acc.mesh.Some? then Err(DuplicateField(MeshKey))
        else if !f.value.MeshValue? then Err(InvalidType)
        else ScanFields(fields[1..], acc.(mesh := Some(f.value.mesh)))
      else Err(UnknownField(f.key))
  }

  /** What `visit_map` does once the keys are exhausted. */
  function FinishMap(s: Slots, cube: Mesh): Result<Model, DeError>
  {
    match s.meshType
    case None => Err(MissingField(MeshTypeKey))
    case Some(t) =>
      if t == Cube then Ok(Model(Cube, Some(cube)))
      else if t == Generic then
        match s.mesh
        case None => Err(MissingField(MeshKey))
        case Some(m) => Ok(Model(Generic, MapMesh(m)))
      else Err(Unsupported(t))
  }

  /** `ModelVisitor::visit_map`. */
  function VisitMap(fields: seq<Field>, cube: Mesh): Result<Model, DeError>
  {
    match ScanFields(fields, Slots(None, None))
    case Err(e) => Err(e)
    case Ok(s) => FinishMap(s, cube)
  }

  /** A field the visitor knows, carrying a value of the right kind. */
  predicate KnownField(f: Field) {
    (f.key == MeshTypeKey && f.value.MeshTypeValue?) || (f.key == MeshKey && f.value.MeshValue?)
  }

  /** Field lists the key loop accepts: known, well-typed fields, no key twice. */
  predicate WellFormed(fields: seq<Field>) {
    && (forall i :: 0 <= i < |fields| ==> KnownField(fields[i]))
    && (forall i, j :: 0 <= i < j < |fields| ==> fields[i].key != fields[j].key)
  }

  predicate HasKey(fields: seq<Field>, k: string) {
    exists i :: 0 <= i < |fields| && fields[i].key == k
  }

  /** The key loop with some slots already filled: it accepts exactly the well-formed rest that does not refill them. */
  lemma {:induction false} ScanFieldsOk(fields: seq<Field>, acc: Slots)
    ensures ScanFields(fields, acc).Ok? <==>
              && WellFormed(fields)
              && (acc.meshType.Some? ==> !HasKey(fields, MeshTypeKey))
              && (acc.mesh.Some? ==> !HasKey(fields, MeshKey))
    ensures ScanFields(fields, acc).Ok? ==>
              var s := ScanFields(fields, acc).value;
              && (s.meshType.Some? <==> acc.meshType.Some? || HasKey(fields, MeshTypeKey))
              && (s.mesh.Some? <==> acc.mesh.Some? || HasKey(fields, MeshKey))
              && (forall i :: 0 <= i < |fields| && fields[i].key == MeshTypeKey ==>
                    s.meshType == Some(fields[i].value.meshType))
              && (forall i :: 0 <= i < |fields| && fields[i].key == MeshKey ==>
                    s.mesh == Some(fields[i].value.mesh))
              && (!HasKey(fields, MeshTypeKey) ==> s.meshType == acc.meshType)
              && (!HasKey(fields, MeshKey) ==> s.mesh == acc.mesh)
    decreases |fields|
  {
    if fields != [] {
      var f := fields[0];
      var rest := fields[1..];
      var acc' := if f.key == MeshTypeKey && f.value.MeshTypeValue? then acc.(meshType := Some(f.value.meshType))
                  else if f.key == MeshKey && f.value.MeshValue? then acc.(mesh := Some(f.value.mesh))
                  else acc;
      ScanFieldsOk(rest, acc');
      WellFormedCons(fields);
      forall k | HasKey(rest, k) ensures HasKey(fields, k) {
        var i :| 0 <= i < |rest| && rest[i].key == k;
        assert fields[i + 1].key == k;
      }
      forall k | HasKey(fields, k) && k != f.key ensures HasKey(rest, k) {
        var i :| 0 <= i < |fields| && fields[i].key == k;
        assert rest[i - 1].key == k;
      }
    }
  }

  /** A field list is well formed iff its head is a known field, its tail is well formed, and the tail does not repeat the head's key. */
  lemma WellFormedCons(fields: seq<Field>)
    requires |fields| > 0
    ensures WellFormed(fields) <==> KnownField(fields[0]) && WellFormed(fields[1..]) && !HasKey(fields[1..], fields[0].key)
  {
    var rest := fields[1..];
    assert forall i :: 0 <= i < |rest| ==> rest[i] == fields[i + 1];
  }

  /** `visit_map` succeeds exactly on well-formed fields naming a supported mesh type, with a mesh when `Generic`. */
  lemma VisitMapOk(fields: seq<Field>, cube: Mesh)
    ensures VisitMap(fields, cube).Ok? <==>
              && WellFormed(fields)
              && exists i :: 0 <= i < |fields| && fields[i].key == MeshTypeKey &&
                   (fields[i].value.meshType == Cube ||
                    (fields[i].value.meshType == Generic && HasKey(fields, MeshKey)))
  {
    ScanFieldsOk(fields, Slots(None, None));
  }

  /** A repeated key is a duplicate-field error as soon as the loop reaches it. */
  lemma DuplicateKey(f: Field, g: Field, rest: seq<Field>, cube: Mesh)
    requires KnownField(f) && g.key == f.key
    ensures VisitMap([f, g] + rest, cube) == Err(DuplicateField(f.key))
  {
    var fs := [f, g] + rest;
    assert fs[0] == f && fs[1..] == [g] + rest && fs[1..][0] == g;
    var s1 := if f.key == MeshTypeKey then Slots(Some(f.value.meshType), None) else Slots(None, Some(f.value.mesh));
    assert ScanFields(fs, Slots(None, None)) == ScanFields(fs[1..], s1);
  }

  /** Well-formed fields without `mesh_type` are a missing-field error. */
  lemma MissingMeshType(fields: seq<Field>, cube: Mesh)
    requires WellFormed(fields) && !HasKey(fields, MeshTypeKey)
    ensures VisitMap(fields, cube) == Err(MissingField(MeshTypeKey))
  {
    ScanFieldsOk(fields, Slots(None, None));
  }

  /** A `Cube` model loads as `Model::cube()` whatever mesh was written; a `Generic` one needs its mesh. */
  lemma MapMeshTypeDecides(fields: seq<Field>, cube: Mesh, i: nat)
    requires WellFormed(fields) && i < |fields| && fields[i].key == MeshTypeKey
    ensures fields[i].value.meshType == Cube ==> VisitMap(fields, cube) == Ok(CubeModel(cube))
    ensures fields[i].value.meshType == Generic && !HasKey(fields, MeshKey) ==>
              VisitMap(fields, cube) == Err(MissingField(MeshKey))
    ensures fields[i].value.meshType == Generic ==> forall j :: 0 <= j < |fields| && fields[j].key == MeshKey ==>
              VisitMap(fields, cube) == Ok(Model(Generic, MapMesh(fields[j].value.mesh)))
    ensures fields[i].value.meshType != Cube && fields[i].value.meshType != Generic ==>
              VisitMap(fields, cube) == Err(Unsupported(fields[i].value.meshType))
  {
    ScanFieldsOk(fields, Slots(None, None));
  }

  /** What a model looks like after a round trip: mesh types other than `Generic` rebuild their mesh. */
  function Reloaded(m: Model, cube: Mesh): Model
  {
    if m.meshType == Cube then CubeModel(cube)
    else Model(m.meshType, MapMesh(if m.mesh.Some? then Some(ToData(m.mesh.value)) else None))
  }

  /** Map-form round trip for the mesh types the visitor supports. */
  lemma MapRoundTrip(m: Model, cube: Mesh)
    requires m.meshType == Cube || m.meshType == Generic
    ensures VisitMap(Serialize(m), cube) == Ok(Reloaded(m, cube))
    ensures m.meshType == Generic && m.mesh.Some? ==>
              && VisitMap(Serialize(m), cube).value.mesh == Some(Clone(m.mesh.value))
    ensures m.meshType == Cube ==> VisitMap(Serialize(m), cube) == Ok(CubeModel(cube))
  {
    var fs := Serialize(m);
    var s1 := Slots(Some(m.meshType), None);
    var s2 := s1.(mesh := Some(fs[1].value.mesh));
    assert fs[1..][0] == fs[1] && fs[1..][1..] == [];
    assert ScanFields(fs, Slots(None, None)) == ScanFields(fs[1..], s1);
    assert ScanFields(fs[1..], s1) == ScanFields(fs[1..][1..], s2);
  }

  // ---------------------------------------------------------------------
  // Sequence form
  // ---------------------------------------------------------------------

  /** A sequence-form result: the model or error, and how many elements were read. */
  datatype SeqVisit = SeqVisit(result: Result<Model, DeError>, consumed: nat)

  /**
   * `ModelVisitor::visit_seq` as written: the mesh element is read only for
   * `Generic` models.
   */
  function VisitSeq(elems: seq<Value>, cube: Mesh): (v: SeqVisit)
    ensures v.consumed <= |elems|
    ensures |elems| == 0 ==> v.result == Err(InvalidLength(0))
  {
    if |elems| == 0 then SeqVisit(Err(InvalidLength(0)), 0)
    else if !elems[0].MeshTypeValue? then SeqVisit(Err(InvalidType), 1)
    else
      var t := elems[0].meshType;
      if t == Cube then SeqVisit(Ok(Model(Cube, Some(cube))), 1)
      else if t == Generic then
        if |elems| < 2 then SeqVisit(Err(InvalidLength(1)), 1)
        else if !elems[1].MeshValue? then SeqVisit(Err(InvalidType), 2)
        else SeqVisit(Ok(Model(Generic, MapMesh(elems[1].mesh))), 2)
      else SeqVisit(Err(Unsupported(t)), 1)
  }

  /**
   * The sequence visitor with the mesh element always read, as the
   * serializer always writes it: for non-`Generic` types it is read and
   * ignored.
   */
  function VisitSeqReadingMesh(elems: seq<Value>, cube: Mesh): (v: SeqVisit)
    ensures v.consumed <= |elems|
    ensures |elems| == 0 ==> v.result == Err(InvalidLength(0))
  {
    if |elems| == 0 then SeqVisit(Err(InvalidLength(0)), 0)
    else if !elems[0].MeshTypeValue? then SeqVisit(Err(InvalidType), 1)
    else
      var t := elems[0].meshType;
      if t != Cube && t != Generic then SeqVisit(Err(Unsupported(t)), 1)
      else if |elems| < 2 then SeqVisit(Err(InvalidLength(1)), 1)
      else if !elems[1].MeshValue? then SeqVisit(Err(InvalidType), 2)
      else if t == Cube then SeqVisit(Ok(Model(Cube, Some(cube))), 2)
      else SeqVisit(Ok(Model(Generic, MapMesh(elems[1].mesh))), 2)
  }

  /** Both sequence visitors give the same model; only how much they read differs. */
  lemma SeqVisitorsAgreeOnGeneric(elems: seq<Value>, cube: Mesh)
    requires |elems| > 0 && elems[0] == MeshTypeValue(Generic)
    ensures VisitSeq(elems, cube) == VisitSeqReadingMesh(elems, cube)
  {
  }

  /** A `Generic` model round-trips through the sequence form as written, reading every element. */
  lemma SeqRoundTripGeneric(m: Model, cube: Mesh)
    requires m.meshType == Generic
    ensures var vs := Values(Serialize(m));
            VisitSeq(vs, cube) == SeqVisit(Ok(Reloaded(m, cube)), |vs|)
  {
  }

  /**
   * The code as written leaves the serialized `mesh` element of a `Cube`
   * model unread: the model comes back, but one of the two elements written
   * is still pending in the input.
   */
  lemma SeqCubeLeavesMeshUnread(m: Model, cube: Mesh)
    requires m.meshType == Cube
    ensures var vs := Values(Serialize(m));
            && VisitSeq(vs, cube).result == Ok(CubeModel(cube))
            && VisitSeq(vs, cube).consumed == 1 < |vs| == 2
  {
  }

  /** With the mesh element always read, both supported types round-trip and read everything written. */
  lemma SeqRoundTripReadingMesh(m: Model, cube: Mesh)
    requires m.meshType == Cube || m.meshType == Generic
    ensures var vs := Values(Serialize(m));
            VisitSeqReadingMesh(vs, cube) == SeqVisit(Ok(Reloaded(m, cube)), |vs|)
  {
  }

  /** A `Generic` sequence that stops after the mesh type is `invalid_length(1)`. */
  lemma SeqGenericWithoutMesh(t: Value, cube: Mesh)
    requires t == MeshTypeValue(Generic)
    ensures VisitSeq([t], cube).result == Err(InvalidLength(1))
    ensures VisitSeqReadingMesh([t], cube).result == Err(InvalidLength(1))
  {
  }
}

=== FILE: renderer.dfy ===
/**
 * The renderer's pipeline registry (one graphics pipeline per material
 * type, first binding wins) and the two model commands: prepare, which sets
 * a mesh up for its material's pipeline, and draw, which refuses a mesh that
 * was never prepared. GL calls are abstracted: compiling a pipeline is an
 * input, and a draw is reported as the draw call it would issue.
 */
module Renderer {
  import opened Wrappers
  import opened TypeIds
  import opened Mesh
  import opened Models

  /** A linked GL program. */
  datatype Pipeline = Pipeline(program: nat)

  /** The `RenderError` variants the registry and the model commands raise. */
  datatype RenderError = MaterialNotBound(material: string) | ModelNotPrepared

  datatype Renderer = Renderer(pipelines: map<TypeTag, Pipeline>)

  /** `glDrawElements` for a mesh: the pipeline used and the number of indices. */
  datatype DrawCall = DrawCall(pipeline: Pipeline, indexCount: nat)

  /** `Renderer::init`: no material is bound. */
  function Init(): (r: Renderer)
    ensures r.pipelines == map[]
  {
    Renderer(map[])
  }

  /** `get_pipeline::<M>`. */
  function GetPipeline(r: Renderer, material: TypeTag): (p: Result<Pipeline, RenderError>)
    ensures p.Ok? <==> material in r.pipelines
    ensures p.Ok? ==> p.value == r.pipelines[material]
    ensures p.Err? ==> p.error == MaterialNotBound(material.name)
  {
    if material in r.pipelines then Ok(r.pipelines[material]) else Err(MaterialNotBound(material.name))
  }

  /** The result of `bind_material`: the renderer, and whether the "already bound" error was logged. */
  datatype Binding = Binding(renderer: Renderer, loggedAlreadyBound: bool)

  /**
   * `bind_material::<M>`: the pipeline is compiled in any case, but stored
   * only when `M` has none yet; otherwise an error is logged and the first
   * pipeline stays.
   */
  function BindMaterial(r: Renderer, material: TypeTag, compiled: Pipeline): (b: Binding)
    ensures b.loggedAlreadyBound <==> material in r.pipelines
    ensures b.renderer.pipelines.Keys == r.pipelines.Keys + {material}
    ensures material in r.pipelines ==> b.renderer == r
    ensures material !in r.pipelines ==> b.renderer.pipelines[material] == compiled
    ensures forall t :: t in r.pipelines ==> b.renderer.pipelines[t] == r.pipelines[t]
  {
    if material !in r.pipelines then Binding(Renderer(r.pipelines[material := compiled]), false)
    else Binding(r, true)
  }

  /** The outcome of a prepare: the command's result and the model it leaves behind. */
  datatype Prepared = Prepared(result: Result<(), RenderError>, model: Model)

  /**
   * `PrepareModelCommand::execute`: a model without a mesh is left alone;
   * otherwise the material's pipeline must be bound, and the mesh is then
   * marked prepared.
   */
  function PrepareModel(r: Renderer, model: Model, material: TypeTag): (p: Prepared)
    ensures model.mesh.None? ==> p == Prepared(Ok(()), model)
    ensures model.mesh.Some? && material !in r.pipelines ==>
              p == Prepared(Err(MaterialNotBound(material.name)), model)
    ensures p.result.Ok? && model.mesh.Some? ==>
              && p.model.meshType == model.meshType
              && p.model.mesh == Some(model.mesh.value.(prepared := true))
  {
    match model.mesh
    case None => Prepared(Ok(()), model)
    case Some(mesh) =>
      match GetPipeline(r, material)
      case Err(e) => Prepared(Err(e), model)
      case Ok(_) => Prepared(Ok(()), model.(mesh := Some(mesh.(prepared := true))))
  }

  /**
   * `DrawModelCommand::execute`: no mesh draws nothing; an unprepared mesh
   * is refused before the pipeline is even looked up.
   */
  function DrawModel(r: Renderer, model: Model, material: TypeTag): (d: Result<Option<DrawCall>, RenderError>)
    ensures model.mesh.None? ==> d == Ok(None)
    ensures model.mesh.Some? && !model.mesh.value.prepared ==> d == Err(ModelNotPrepared)
    ensures model.mesh.Some? && model.mesh.value.prepared ==>
              (d.Ok? <==> material in r.pipelines)
    ensures d.Ok? && model.mesh.Some? ==>
              d.value == Some(DrawCall(r.pipelines[material], |model.mesh.value.indexData|))
  {
    match model.mesh
    case None => Ok(None)
    case Some(mesh) =>
      if !mesh.prepared then Err(ModelNotPrepared)
      else
        match GetPipeline(r, material)
        case Err(e) => Err(e)
        case Ok(p) => Ok(Some(DrawCall(p, |mesh.indexData|)))
  }

  /** Binding makes the pipeline available; a second binding keeps the first pipeline. */
  lemma BindThenGet(r: Renderer, material: TypeTag, first: Pipeline, second: Pipeline)
    requires material !in r.pipelines
    ensures var r1 := BindMaterial(r, material, first).renderer;
            && GetPipeline(r1, material) == Ok(first)
            && GetPipeline(BindMaterial(r1, material, second).renderer, material) == Ok(first)
            && BindMaterial(r1, material, second).loggedAlreadyBound
  {
  }

  /**
   * The `render_material` system runs prepare then draw on each model: with
   * the material bound, every model with a mesh is drawn with all its
   * indices; without it, prepare already fails and the mesh stays unprepared.
   */
  lemma PrepareThenDraw(r: Renderer, model: Model, material: TypeTag)
    ensures var p := PrepareModel(r, model, material);
            material in r.pipelines ==>
              && p.result.Ok?
              && DrawModel(r, p.model, material) ==
                   (if model.mesh.None? then Ok(None)
                    else Ok(Some(DrawCall(r.pipelines[material], |model.mesh.value.indexData|))))
    ensures var p := PrepareModel(r, model, material);
            material !in r.pipelines && model.mesh.Some? ==>
              && p.result == Err(MaterialNotBound(material.name))
              && DrawModel(r, p.model, material) ==
                   (if model.mesh.value.prepared then Err(MaterialNotBound(material.name)) else Err(ModelNotPrepared))
  {
  }

  /** Clones and freshly loaded models must be prepared again before they can be drawn. */
  lemma ClonedMeshNeedsPrepare(r: Renderer, model: Model, material: TypeTag)
    requires model.mesh.Some?
    ensures DrawModel(r, Model(model.meshType, Some(Clone(model.mesh.value))), material) == Err(ModelNotPrepared)
  {
  }
}

=== FILE: resources.dfy ===
/**
 * `Resources`: process-wide singletons keyed by the identity of their type.
 * Lookups report failure as `None`; the cell under a type key always holds
 * a value of that type, so the downcast cannot fail.
 */
module Resources {
  import opened Wrappers
  import opened TypeIds
  import opened Locks

  datatype Cell<V> = Cell(tag: TypeTag, value: V, lock: LockState)

  datatype Registry<V> = Registry(res: map<TypeTag, Cell<V>>) {
    /** Each key holds a cell of that very type, with a consistent lock. */
    predicate Valid() {
      forall t :: t in res ==> res[t].tag == t && res[t].lock.Valid()
    }
  }

  datatype Access<V> = Access(result: Option<V>, registry: Registry<V>)

  function New<V>(): (r: Registry<V>)
    ensures r.Valid() && r.res == map[]
  {
    Registry(map[])
  }

  /** `add_resource::<R>`: installs a fresh, unlocked cell, replacing any earlier `R`. */
  function AddResource<V>(r: Registry<V>, t: TypeTag, value: V): (r': Registry<V>)
    requires r.Valid()
    ensures r'.Valid()
    ensures r'.res.Keys == r.res.Keys + {t}
    ensures r'.res[t] == Cell(t, value, Unlocked)
    ensures forall u :: u in r.res && u != t ==> r'.res[u] == r.res[u]
  {
    Registry(r.res[t := Cell(t, value, Unlocked)])
  }

  /** The downcast `try_map` performs: it succeeds only on a cell of the requested type. */
  function Downcast<V>(c: Cell<V>, t: TypeTag): Option<V>
  {
    if c.tag == t then Some(c.value) else None
  }

  /** `get_resource::<R>`: the entry, then `try_read`, then the downcast. */
  function GetResource<V>(r: Registry<V>, t: TypeTag): (a: Access<V>)
    requires r.Valid()
    ensures a.registry.Valid()
    ensures a.result.Some? <==> t in r.res && !r.res[t].lock.writer
    ensures a.result.Some? ==>
              && a.result.value == r.res[t].value
              && a.registry.res == r.res[t := r.res[t].(lock := LockState(r.res[t].lock.readers + 1, false))]
    ensures a.result.None? ==> a.registry == r
  {
    if t !in r.res then Access(None, r)
    else
      var cell := r.res[t];
      match TryRead(cell.lock)
      case None => Access(None, r)
      case Some(held) =>
        match Downcast(cell, t)
        case None => Access(None, r)
        case Some(v) => Access(Some(v), Registry(r.res[t := cell.(lock := held)]))
  }

  /** `get_resource_mut::<R>`: the entry, then `try_write`, then the downcast. */
  function GetResourceMut<V>(r: Registry<V>, t: TypeTag): (a: Access<V>)
    requires r.Valid()
    ensures a.registry.Valid()
    ensures a.result.Some? <==> t in r.res && r.res[t].lock.IsFree()
    ensures a.result.Some? ==>
              && a.result.value == r.res[t].value
              && a.registry.res == r.res[t := r.res[t].(lock := LockState(0, true))]
    ensures a.result.None? ==> a.registry == r
  {
    if t !in r.res then Access(None, r)
    else
      var cell := r.res[t];
      match TryWrite(cell.lock)
      case None => Access(None, r)
      case Some(held) =>
        match Downcast(cell, t)
        case None => Access(None, r)
        case Some(v) => Access(Some(v), Registry(r.res[t := cell.(lock := held)]))
  }

  /** `remove_resource::<R>`: only `R`'s entry goes. */
  function RemoveResource<V>(r: Registry<V>, t: TypeTag): (r': Registry<V>)
    requires r.Valid()
    ensures r'.Valid()
    ensures r'.res.Keys == r.res.Keys - {t}
    ensures forall u :: u in r'.res ==> r'.res[u] == r.res[u]
  {
    Registry(r.res - {t})
  }

  /** The key discipline makes the downcast infallible in a valid registry. */
  lemma DowncastNeverFails<V>(r: Registry<V>, t: TypeTag)
    requires r.Valid() && t in r.res
    ensures Downcast(r.res[t], t) == Some(r.res[t].value)
  {
  }

  /** Adding then reading gives back the value; a second add wins over the first. */
  lemma AddThenGet<V>(r: Registry<V>, t: TypeTag, first: V, second: V)
    requires r.Valid()
    ensures GetResource(AddResource(r, t, first), t).result == Some(first)
    ensures GetResource(AddResource(AddResource(r, t, first), t, second), t).result == Some(second)
    ensures GetResourceMut(AddResource(r, t, first), t).result == Some(first)
  {
  }

  /** At most one resource per type: adding `R` twice leaves one `R` entry. */
  lemma OnePerType<V>(r: Registry<V>, t: TypeTag, first: V, second: V)
    requires r.Valid()
    ensures AddResource(AddResource(r, t, first), t, second) == AddResource(r, t, second)
  {
  }

  /** Removing `R` answers `None` for `R` and leaves every other type's answer unchanged. */
  lemma RemoveThenGet<V>(r: Registry<V>, t: TypeTag, u: TypeTag)
    requires r.Valid() && u != t
    ensures GetResource(RemoveResource(r, t), t).result == None
    ensures GetResource(RemoveResource(r, t), u).result == GetResource(r, u).result
    ensures GetResourceMut(RemoveResource(r, t), u).result == GetResourceMut(r, u).result
  {
  }

  /** A held read guard blocks `get_resource_mut` of that type but not another read. */
  lemma ReadBlocksWrite<V>(r: Registry<V>, t: TypeTag)
    requires r.Valid() && GetResource(r, t).result.Some?
    ensures var r' := GetResource(r, t).registry;
            GetResourceMut(r', t).result == None && GetResource(r', t).result.Some?
  {
  }
}

=== FILE: save_load.dfy ===
/**
 * The component allow-list that `impl_save_load!` generates for a loader:
 * which of an archetype's component types are written, in which order, and
 * how ids read back are matched against the list. An allow-list entry is a
 * type together with the name `stringify!` gives it.
 */
module SaveLoad {
  import opened Wrappers
  import opened TypeIds

  /** The types named in the macro invocation, in declaration order. */
  type AllowList = seq<TypeTag>

  /** Ids a loader reads back are matched by name, so names must tell the entries apart. */
  predicate DistinctNames(allow: AllowList) {
    forall i, j :: 0 <= i < j < |allow| ==> allow[i].name != allow[j].name
  }

  /** An archetype lists each of its component types once. */
  predicate Distinct(types: seq<TypeTag>) {
    forall i, j :: 0 <= i < j < |types| ==> types[i] != types[j]
  }

  /** The loader state: the `components` field, the ids read by the last `deserialize_component_ids`. */
  datatype Loader = Loader(components: seq<string>)

  /**
   * The failure a serde sequence access can report while ids or columns are
   * read: an element that does not decode, a missing column, or a column
   * that ends after `length` of the components it should hold.
   */
  datatype DecodeError = Malformed | MissingColumn(index: nat) | ShortColumn(length: nat)

  /**
   * A column as the input holds it: its elements in order, `None` standing
   * for an element that fails to decode.
   */
  type ColumnInput<C> = seq<Option<C>>

  /** Ids as a serde sequence yields them: these ids, then either the end or a decode failure. */
  datatype IdStream = IdStream(ids: seq<string>, fails: bool)

  // ---------------------------------------------------------------------
  // Serialization side
  // ---------------------------------------------------------------------

  /** `component_count`: how many of the archetype's types are on the allow-list. */
  function ComponentCount(archetype: seq<TypeTag>, allow: AllowList): (n: nat)
    ensures n <= |archetype|
    ensures n == 0 <==> forall t :: t in archetype ==> t !in allow
  {
    if archetype == [] then 0
    else (if archetype[0] in allow then 1 else 0) + ComponentCount(archetype[1..], allow)
  }

  /**
   * `serialize_components`: one `try_serialize` per declared type, in
   * declaration order; a type the archetype lacks writes nothing.
   */
  function SerializedColumns(archetype: seq<TypeTag>, allow: AllowList): (cols: seq<TypeTag>)
    ensures |cols| <= |allow|
    ensures forall t :: t in cols <==> t in allow && t in archetype
  {
    if allow == [] then []
    else (if allow[0] in archetype then [allow[0]] else []) + SerializedColumns(archetype, allow[1..])
  }

  /** `serialize_component_ids`: the same walk, writing each present type's name. */
  function SerializedIds(archetype: seq<TypeTag>, allow: AllowList): (ids: seq<string>)
    ensures |ids| == |SerializedColumns(archetype, allow)|
    ensures forall k :: 0 <= k < |ids| ==> ids[k] == SerializedColumns(archetype, allow)[k].name
  {
    if allow == [] then []
    else (if allow[0] in archetype then [allow[0].name] else []) + SerializedIds(archetype, allow[1..])
  }

  /**
   * `idx` places each element of `xs` in `ys`: `xs[k]` sits at `ys[idx[k]]`,
   * and the positions strictly increase, so `xs` keeps `ys`'s order.
   */
  predicate IndexesInto(idx: seq<nat>, xs: seq<TypeTag>, ys: seq<TypeTag>)
  {
    |idx| == |xs| &&
    (forall k :: 0 <= k < |idx| ==> idx[k] < |ys| && ys[idx[k]] == xs[k]) &&
    (forall k, l :: 0 <= k < l < |idx| ==> idx[k] < idx[l])
  }

  /** `xs` is a subsequence of `ys`. */
  ghost predicate SubseqOf(xs: seq<TypeTag>, ys: seq<TypeTag>)
  {
    exists idx :: IndexesInto(idx, xs, ys)
  }

  /** Positions in the tail of `ys` become positions in `ys` one further on. */
  function Shift(idx: seq<nat>): (r: seq<nat>)
    ensures |r| == |idx| && forall k :: 0 <= k < |idx| ==> r[k] == idx[k] + 1
  {
    seq(|idx|, k requires 0 <= k < |idx| => idx[k] + 1)
  }

  lemma ShiftIndexes(idx: seq<nat>, xs: seq<TypeTag>, ys: seq<TypeTag>)
    requires |ys| > 0 && IndexesInto(idx, xs, ys[1..])
    ensures IndexesInto(Shift(idx), xs, ys)
  {
    var r := Shift(idx);
    forall k | 0 <= k < |r| ensures r[k] < |ys| && ys[r[k]] == xs[k] {
      assert ys[1..][idx[k]] == ys[idx[k] + 1];
    }
  }

  lemma ConsShiftIndexes(idx: seq<nat>, xs: seq<TypeTag>, ys: seq<TypeTag>)
    requires |ys| > 0 && IndexesInto(idx, xs, ys[1..])
    ensures IndexesInto([0] + Shift(idx), [ys[0]] + xs, ys)
  {
    ShiftIndexes(idx, xs, ys);
    var r := [0] + Shift(idx);
    var zs := [ys[0]] + xs;
    assert forall k :: 1 <= k < |r| ==> r[k] == Shift(idx)[k - 1] && zs[k] == xs[k - 1];
  }

  /** The positions in the allow-list that the written columns come from: every present entry, in order. */
  lemma {:induction false} SerializedColumnsPositions(archetype: seq<TypeTag>, allow: AllowList) returns (idx: seq<nat>)
    ensures IndexesInto(idx, SerializedColumns(archetype, allow), allow)
    ensures forall j :: 0 <= j < |allow| && allow[j] in archetype ==> j in idx
  {
    if allow == [] {
      idx := [];
    } else {
      var rest := allow[1..];
      var cols := SerializedColumns(archetype, rest);
      var inner := SerializedColumnsPositions(archetype, rest);
      ShiftIndexes(inner, cols, allow);
      ConsShiftIndexes(inner, cols, allow);
      var shifted := Shift(inner);
      assert forall j :: 1 <= j < |allow| && allow[j] in archetype ==> j in shifted by {
        forall j | 1 <= j < |allow| && allow[j] in archetype ensures j in shifted {
          assert rest[j - 1] == allow[j];
          var k :| 0 <= k < |inner| && inner[k] == j - 1;
          assert shifted[k] == j;
        }
      }
      if allow[0] in archetype {
        assert SerializedColumns(archetype, allow) == [allow[0]] + cols;
        idx := [0] + shifted;
        assert idx[0] == 0;
        assert forall j :: 1 <= j < |allow| && j in shifted ==> j in idx;
      } else {
        assert SerializedColumns(archetype, allow) == cols;
        idx := shifted;
      }
    }
  }

  /**
   * The columns are written in declaration order: they are the allow-list
   * with the types the archetype lacks dropped, and nothing else.
   */
  lemma SerializedColumnsKeepOrder(archetype: seq<TypeTag>, allow: AllowList)
    ensures SubseqOf(SerializedColumns(archetype, allow), allow)
    ensures exists idx :: IndexesInto(idx, SerializedColumns(archetype, allow), allow) &&
                          forall j :: 0 <= j < |allow| && allow[j] in archetype ==> j in idx
  {
    var idx := SerializedColumnsPositions(archetype, allow);
  }

  /** The number of elements in `s` that `keep` holds for. */
  function CountIn(s: seq<TypeTag>, keep: set<TypeTag>): nat
  {
    if s == [] then 0 else (if s[0] in keep then 1 else 0) + CountIn(s[1..], keep)
  }

  /** The tail of a list without repeats has none either, and lacks the head. */
  lemma DistinctTail(s: seq<TypeTag>)
    requires |s| > 0 && Distinct(s)
    ensures Distinct(s[1..]) && s[0] !in s[1..]
  {
    var rest := s[1..];
    assert forall k :: 0 <= k < |rest| ==> rest[k] == s[k + 1];
  }

  lemma {:induction false} CountInIsCardinality(s: seq<TypeTag>, keep: set<TypeTag>)
    requires Distinct(s)
    ensures CountIn(s, keep) == |(set t | t in s) * keep|
  {
    if s == [] {
      assert (set t | t in s) * keep == {};
    } else {
      var rest := s[1..];
      DistinctTail(s);
      CountInIsCardinality(rest, keep);
      ElementsOfCons(s);
      CardinalityStep((set t | t in rest), s[0], keep);
    }
  }

  lemma ElementsOfCons(s: seq<TypeTag>)
    requires |s| > 0
    ensures (set t | t in s) == (set t | t in s[1..]) + {s[0]}
  {
    assert s == [s[0]] + s[1..];
  }

  /** Adding a new element to a set adds one to its intersection with `keep` exactly when `keep` holds it. */
  lemma CardinalityStep(a: set<TypeTag>, x: TypeTag, keep: set<TypeTag>)
    requires x !in a
    ensures |(a + {x}) * keep| == |a * keep| + if x in keep then 1 else 0
  {
    if x in keep {
      assert (a + {x}) * keep == a * keep + {x};
    } else {
      assert (a + {x}) * keep == a * keep;
    }
  }

  lemma {:induction false} ComponentCountIsCountIn(archetype: seq<TypeTag>, allow: AllowList)
    ensures ComponentCount(archetype, allow) == CountIn(archetype, set t | t in allow)
  {
    if archetype != [] {
      ComponentCountIsCountIn(archetype[1..], allow);
    }
  }

  lemma {:induction false} ColumnsIsCountIn(archetype: seq<TypeTag>, allow: AllowList)
    ensures |SerializedColumns(archetype, allow)| == CountIn(allow, set t | t in archetype)
  {
    if allow != [] {
      ColumnsIsCountIn(archetype, allow[1..]);
    }
  }

  /**
   * The tuple length announced by `component_count` is exactly the number of
   * ids and columns the serializer then writes: both count the types that
   * are in the archetype and on the allow-list.
   */
  lemma CountMatchesWrittenColumns(archetype: seq<TypeTag>, allow: AllowList)
    requires Distinct(archetype) && Distinct(allow)
    ensures ComponentCount(archetype, allow) == |SerializedColumns(archetype, allow)|
    ensures ComponentCount(archetype, allow) == |SerializedIds(archetype, allow)|
    ensures ComponentCount(archetype, allow) == |(set t | t in archetype) * (set t | t in allow)|
  {
    ComponentCountIsCountIn(archetype, allow);
    CountInIsCardinality(archetype, set t | t in allow);
    ColumnsIsCountIn(archetype, allow);
    CountInIsCardinality(allow, set t | t in archetype);
    assert (set t | t in archetype) * (set t | t in allow) == (set t | t in allow) * (set t | t in archetype);
  }

  /** Counting a list's elements never gives less than counting its distinct ones. */
  lemma {:induction false} CountInAtLeastCardinality(s: seq<TypeTag>, keep: set<TypeTag>)
    ensures CountIn(s, keep) >= |(set t | t in s) * keep|
  {
    if s != [] {
      CountInAtLeastCardinality(s[1..], keep);
      ElementsOfCons(s);
      if s[0] in s[1..] {
        assert (set t | t in s) == (set t | t in s[1..]);
      } else {
        CardinalityStep((set t | t in s[1..]), s[0], keep);
      }
    }
  }

  /** A kept element listed twice is counted twice, so the count exceeds the number of distinct kept elements. */
  lemma {:induction false} CountInRepeatExceeds(s: seq<TypeTag>, keep: set<TypeTag>, i: nat, j: nat)
    requires i < j < |s| && s[i] == s[j] && s[i] in keep
    ensures CountIn(s, keep) > |(set t | t in s) * keep|
  {
    var rest := s[1..];
    ElementsOfCons(s);
    if i == 0 {
      assert rest[j - 1] == s[0];
      assert (set t | t in s) == (set t | t in rest);
      CountInAtLeastCardinality(rest, keep);
    } else {
      assert rest[i - 1] == s[i] && rest[j - 1] == s[j];
      CountInRepeatExceeds(rest, keep, i - 1, j - 1);
      if s[0] in rest {
        assert (set t | t in s) == (set t | t in rest);
      } else {
        CardinalityStep((set t | t in rest), s[0], keep);
      }
    }
  }

  /**
   * The macro does not reject a type listed twice. `component_count` counts
   * the archetype's types, so such a type counts once, while the serializer
   * walks the list and writes its id and column twice: the announced tuple
   * length falls short of what is written.
   */
  lemma RepeatedEntryOverruns(archetype: seq<TypeTag>, allow: AllowList, i: nat, j: nat)
    requires Distinct(archetype)
    requires i < j < |allow| && allow[i] == allow[j] && allow[i] in archetype
    ensures ComponentCount(archetype, allow) < |SerializedColumns(archetype, allow)|
    ensures ComponentCount(archetype, allow) < |SerializedIds(archetype, allow)|
  {
    ComponentCountIsCountIn(archetype, allow);
    CountInIsCardinality(archetype, set t | t in allow);
    ColumnsIsCountIn(archetype, allow);
    CountInRepeatExceeds(allow, (set t | t in archetype), i, j);
    assert (set t | t in archetype) * (set t | t in allow) == (set t | t in allow) * (set t | t in archetype);
  }

  // ---------------------------------------------------------------------
  // Deserialization side
  // ---------------------------------------------------------------------

  /** The match on `id.as_str()`: the first declared type whose name is `id`. */
  function Lookup(allow: AllowList, id: string): (r: Option<TypeTag>)
    ensures r.Some? ==> r.value in allow && r.value.name == id
    ensures r.None? <==> forall t :: t in allow ==> t.name != id
  {
    if allow == [] then None
    else if allow[0].name == id then Some(allow[0])
    else Lookup(allow[1..], id)
  }

  /** The reference definition of a column batch: one column per recognised id, in read order. */
  function KnownColumns(allow: AllowList, ids: seq<string>): (cols: seq<TypeTag>)
    ensures |cols| <= |ids|
    ensures forall t :: t in cols ==> t in allow
  {
    if ids == [] then []
    else
      var rest := KnownColumns(allow, ids[..|ids| - 1]);
      match Lookup(allow, ids[|ids| - 1])
      case Some(t) => rest + [t]
      case None => rest
  }

  /**
   * `deserialize_component_ids`: forget the previous ids, then for every id
   * read add a column when the id is on the allow-list and record the id
   * whether or not it is.
   */
  method DeserializeComponentIds(loader: Loader, allow: AllowList, input: IdStream)
    returns (loader': Loader, batch: Result<seq<TypeTag>, DecodeError>)
    ensures loader'.components == input.ids
    ensures batch.Err? <==> input.fails
    ensures batch.Ok? ==> batch.value == KnownColumns(allow, input.ids)
  {
    loader' := Loader([]);
    var columns: seq<TypeTag> := [];
    var i := 0;
    while i < |input.ids|
      invariant 0 <= i <= |input.ids|
      invariant loader'.components == input.ids[..i]
      invariant columns == KnownColumns(allow, input.ids[..i])
    {
      var id := input.ids[i];
      assert input.ids[..i + 1][..i] == input.ids[..i];
      match Lookup(allow, id) {
        case Some(t) => columns := columns + [t];
        case None =>
      }
      loader' := Loader(loader'.components + [id]);
      i := i + 1;
    }
    assert input.ids[..i] == input.ids;
    if input.fails {
      batch := Err(Malformed);
    } else {
      batch := Ok(columns);
    }
  }

  /**
   * hecs `deserialize_column`: read the column's components one by one for
   * `entityCount` entities; an element that does not decode fails the read,
   * and so does a column that ends early.
   */
  function DecodeColumn<C>(col: ColumnInput<C>, entityCount: nat): (r: Result<seq<C>, DecodeError>)
    ensures r.Ok? <==> entityCount <= |col| && forall i :: 0 <= i < entityCount ==> col[i].Some?
    ensures r.Ok? ==> |r.value| == entityCount && forall i :: 0 <= i < entityCount ==> r.value[i] == col[i].value
    ensures r.Err? ==> r.error == Malformed || (r.error == ShortColumn(|col|) && |col| < entityCount)
    decreases entityCount
  {
    if entityCount == 0 then Ok([])
    else
      match DecodeColumn(col, entityCount - 1)
      case Err(e) => Err(e)
      case Ok(prefix) =>
        if entityCount - 1 >= |col| then Err(ShortColumn(|col|))
        else if col[entityCount - 1].None? then Err(Malformed)
        else Ok(prefix + [col[entityCount - 1].value])
  }

  /** A column written for `entity_count` entities reads back as the components written. */
  lemma ColumnRoundTrip<C>(components: seq<C>)
    ensures DecodeColumn(seq(|components|, i requires 0 <= i < |components| => Some(components[i])), |components|) == Ok(components)
  {
    var col := seq(|components|, i requires 0 <= i < |components| => Some(components[i]));
    assert DecodeColumn(col, |components|).value == components;
  }

  /** The first `upTo` input columns are present and decode without error. */
  ghost predicate ColumnsDecode<C>(input: seq<ColumnInput<C>>, entityCount: nat, upTo: nat)
  {
    upTo <= |input| && forall k :: 0 <= k < upTo ==> DecodeColumn(input[k], entityCount).Ok?
  }

  /**
   * The walk over `want` fails at column `k` with error `e`: every earlier
   * column decoded, and column `k` is missing or fails with `e`.
   */
  ghost predicate FailsAt<C>(want: seq<TypeTag>, input: seq<ColumnInput<C>>, entityCount: nat, k: nat, e: DecodeError)
  {
    && k < |want|
    && ColumnsDecode(input, entityCount, k)
    && if k == |input| then e == MissingColumn(k)
       else DecodeColumn(input[k], entityCount).Err? && e == DecodeColumn(input[k], entityCount).error
  }

  /**
   * The reference definition of decoding a batch: one column per type of
   * `want`, in order, each decoded for `entityCount` entities; the first
   * column that is missing or fails decides the error.
   */
  function DecodeColumns<C>(want: seq<TypeTag>, input: seq<ColumnInput<C>>, entityCount: nat): (r: Result<seq<(TypeTag, seq<C>)>, DecodeError>)
    ensures r.Ok? <==> ColumnsDecode(input, entityCount, |want|)
    ensures r.Ok? ==> |r.value| == |want| && forall k :: 0 <= k < |want| ==> r.value[k] == (want[k], DecodeColumn(input[k], entityCount).value)
    decreases |want|
  {
    if want == [] then Ok([])
    else
      var k := |want| - 1;
      match DecodeColumns(want[..k], input, entityCount)
      case Err(e) => Err(e)
      case Ok(out) =>
        if k == |input| then Err(MissingColumn(k))
        else
          var column := DecodeColumn(input[k], entityCount);
          if column.Err? then Err(column.error)
          else Ok(out + [(want[k], column.value)])
  }

  /** A failed batch decoding reports the first column that is missing or does not decode. */
  lemma {:induction false} DecodeColumnsFailsAt<C>(want: seq<TypeTag>, input: seq<ColumnInput<C>>, entityCount: nat)
    requires DecodeColumns(want, input, entityCount).Err?
    ensures exists k :: FailsAt(want, input, entityCount, k, DecodeColumns(want, input, entityCount).error)
    decreases |want|
  {
    var k := |want| - 1;
    var e := DecodeColumns(want, input, entityCount).error;
    var prefix := DecodeColumns(want[..k], input, entityCount);
    if prefix.Err? {
      DecodeColumnsFailsAt(want[..k], input, entityCount);
      var j :| FailsAt(want[..k], input, entityCount, j, e);
      assert FailsAt(want, input, entityCount, j, e);
    } else {
      assert FailsAt(want, input, entityCount, k, e);
    }
  }

  /** Decoding one more column after a clean prefix: it is missing, fails, or is appended. */
  lemma DecodeColumnsStep<C>(want: seq<TypeTag>, t: TypeTag, input: seq<ColumnInput<C>>, entityCount: nat)
    requires DecodeColumns(want, input, entityCount).Ok?
    ensures DecodeColumns(want + [t], input, entityCount) ==
              if |want| == |input| then Err(MissingColumn(|want|))
              else if DecodeColumn(input[|want|], entityCount).Err? then Err(DecodeColumn(input[|want|], entityCount).error)
              else Ok(DecodeColumns(want, input, entityCount).value + [(t, DecodeColumn(input[|want|], entityCount).value)])
  {
    assert (want + [t])[..|want|] == want;
  }

  /** Once a prefix of the batch fails, decoding more columns keeps that error. */
  lemma {:induction false} DecodeColumnsErrorSticks<C>(a: seq<TypeTag>, b: seq<TypeTag>, input: seq<ColumnInput<C>>, entityCount: nat)
    requires DecodeColumns(a, input, entityCount).Err?
    ensures DecodeColumns(a + b, input, entityCount) == DecodeColumns(a, input, entityCount)
    decreases |b|
  {
    if b == [] {
      assert a + b == a;
    } else {
      var b' := b[..|b| - 1];
      DecodeColumnsErrorSticks(a, b', input, entityCount);
      assert (a + b)[..|a + b| - 1] == a + b';
    }
  }

  /**
   * One `deserialize_column` call: the next column of the input, which must
   * be present and decode for `entityCount` entities.
   */
  method DeserializeColumn<C>(input: seq<ColumnInput<C>>, index: nat, entityCount: nat) returns (r: Result<seq<C>, DecodeError>)
    requires index <= |input|
    ensures r.Ok? <==> index < |input| && DecodeColumn(input[index], entityCount).Ok?
    ensures r.Ok? ==> r.value == DecodeColumn(input[index], entityCount).value
    ensures r.Err? && index == |input| ==> r.error == MissingColumn(index)
    ensures r.Err? && index < |input| ==> r.error == DecodeColumn(input[index], entityCount).error
  {
    if index == |input| {
      return Err(MissingColumn(index));
    }
    r := DecodeColumn(input[index], entityCount);
  }

  /** The columns one recorded id selects: its type when the allow-list knows it, else none. */
  function ColumnsFor(allow: AllowList, id: string): (cols: seq<TypeTag>)
    ensures |cols| <= 1
    ensures cols == [] <==> Lookup(allow, id).None?
  {
    match Lookup(allow, id)
    case Some(t) => [t]
    case None => []
  }

  /**
   * One turn of the walk in `deserialize_components`: a recognised id
   * decodes the next column, an unknown one consumes nothing.
   */
  method DecodeRecordedId<C>(allow: AllowList, id: string, input: seq<ColumnInput<C>>, entityCount: nat,
                              out: seq<(TypeTag, seq<C>)>, ghost known: seq<TypeTag>)
    returns (out': seq<(TypeTag, seq<C>)>, failed: Option<DecodeError>)
    requires DecodeColumns(known, input, entityCount) == Ok(out)
    ensures failed.None? ==> DecodeColumns(known + ColumnsFor(allow, id), input, entityCount) == Ok(out')
    ensures failed.Some? ==> DecodeColumns(known + ColumnsFor(allow, id), input, entityCount) == Err(failed.value)
  {
    match Lookup(allow, id) {
      case Some(t) =>
        var column := DeserializeColumn(input, |out|, entityCount);
        DecodeColumnsStep(known, t, input, entityCount);
        if column.Err? {
          return out, Some(column.error);
        }
        return out + [(t, column.value)], None;
      case None =>
        assert known + ColumnsFor(allow, id) == known;
        return out, None;
    }
  }

  /**
   * `deserialize_components`: walk the recorded ids in order and decode one
   * column of `entity_count` components from the input for each recognised
   * id; unknown ids consume nothing, and the first column that fails ends
   * the walk with its error. The result is the reference decoding of the
   * batch the ids select.
   */
  method DeserializeComponents<C>(loader: Loader, allow: AllowList, entityCount: nat, input: seq<ColumnInput<C>>)
    returns (decoded: Result<seq<(TypeTag, seq<C>)>, DecodeError>)
    ensures decoded == DecodeColumns(KnownColumns(allow, loader.components), input, entityCount)
    ensures var want := KnownColumns(allow, loader.components);
            decoded.Ok? <==> ColumnsDecode(input, entityCount, |want|)
    ensures var want := KnownColumns(allow, loader.components);
            decoded.Ok? ==>
              && |decoded.value| == |want|
              && forall k :: 0 <= k < |want| ==> decoded.value[k] == (want[k], DecodeColumn(input[k], entityCount).value)
    ensures var want := KnownColumns(allow, loader.components);
            decoded.Err? ==> exists k :: FailsAt(want, input, entityCount, k, decoded.error)
  {
    ghost var ids := loader.components;
    ghost var known: seq<TypeTag> := [];
    var out: seq<(TypeTag, seq<C>)> := [];
    var i := 0;
    while i < |loader.components|
      invariant 0 <= i <= |ids|
      invariant known == KnownColumns(allow, ids[..i])
      invariant DecodeColumns(known, input, entityCount) == Ok(out)
    {
      KnownColumnsStep(allow, ids, i);
      var failed;
      out, failed := DecodeRecordedId(allow, loader.components[i], input, entityCount, out, known);
      known := known + ColumnsFor(allow, ids[i]);
      if failed.Some? {
        ErrorEndsWalk(allow, ids, i, input, entityCount);
        return Err(failed.value);
      }
      i := i + 1;
    }
    assert ids[..i] == ids;
    decoded := Ok(out);
  }

  /** A column that fails after the first `i + 1` ids fails the decoding of the whole batch with its error. */
  lemma ErrorEndsWalk<C>(allow: AllowList, ids: seq<string>, i: nat, input: seq<ColumnInput<C>>, entityCount: nat)
    requires i < |ids| && DecodeColumns(KnownColumns(allow, ids[..i + 1]), input, entityCount).Err?
    ensures DecodeColumns(KnownColumns(allow, ids), input, entityCount) == DecodeColumns(KnownColumns(allow, ids[..i + 1]), input, entityCount)
    ensures exists k :: FailsAt(KnownColumns(allow, ids), input, entityCount, k, DecodeColumns(KnownColumns(allow, ids), input, entityCount).error)
  {
    KnownColumnsAppend(allow, ids[..i + 1], ids[i + 1..]);
    assert ids[..i + 1] + ids[i + 1..] == ids;
    DecodeColumnsErrorSticks(KnownColumns(allow, ids[..i + 1]), KnownColumns(allow, ids[i + 1..]), input, entityCount);
    DecodeColumnsFailsAt(KnownColumns(allow, ids), input, entityCount);
  }

  /** One more id adds its column to the batch when the allow-list knows it, and nothing otherwise. */
  lemma KnownColumnsStep(allow: AllowList, ids: seq<string>, i: nat)
    requires i < |ids|
    ensures KnownColumns(allow, ids[..i + 1]) == KnownColumns(allow, ids[..i]) + ColumnsFor(allow, ids[i])
  {
    assert ids[..i + 1][..i] == ids[..i];
  }

  lemma {:induction false} KnownColumnsAppend(allow: AllowList, a: seq<string>, b: seq<string>)
    ensures KnownColumns(allow, a + b) == KnownColumns(allow, a) + KnownColumns(allow, b)
    decreases |b|
  {
    if b == [] {
      assert a + b == a;
    } else {
      var b' := b[..|b| - 1];
      KnownColumnsAppend(allow, a, b');
      assert (a + b)[..|a + b| - 1] == a + b';
      assert (a + b)[|a + b| - 1] == b[|b| - 1];
    }
  }

  /**
   * Round trip of the id tuple: reading back the ids the serializer wrote
   * yields exactly the columns it wrote, in the same order.
   */
  lemma {:induction false} IdsRoundTrip(archetype: seq<TypeTag>, allow: AllowList)
    requires DistinctNames(allow)
    ensures KnownColumns(allow, SerializedIds(archetype, allow)) == SerializedColumns(archetype, allow)
  {
    if allow != [] {
      var rest := allow[1..];
      assert DistinctNames(rest) by {
        forall i, j | 0 <= i < j < |rest| ensures rest[i].name != rest[j].name {
          assert rest[i] == allow[i + 1] && rest[j] == allow[j + 1];
        }
      }
      IdsRoundTrip(archetype, rest);
      if allow[0] in archetype {
        var head := [allow[0].name];
        KnownColumnsAppend(allow, head, SerializedIds(archetype, rest));
        assert Lookup(allow, allow[0].name) == Some(allow[0]);
        assert KnownColumns(allow, head) == [allow[0]] by {
          assert head[..0] == [];
        }
      } else {
        assert SerializedIds(archetype, allow) == SerializedIds(archetype, rest);
      }
      KnownColumnsOfTail(archetype, allow);
    }
  }

  /** Ids written for the later entries are matched by the whole list as by its tail. */
  lemma {:induction false} KnownColumnsOfTail(archetype: seq<TypeTag>, allow: AllowList)
    requires |allow| > 0 && DistinctNames(allow)
    ensures KnownColumns(allow, SerializedIds(archetype, allow[1..])) == KnownColumns(allow[1..], SerializedIds(archetype, allow[1..]))
  {
    var ids := SerializedIds(archetype, allow[1..]);
    forall k | 0 <= k < |ids| ensures Lookup(allow, ids[k]) == Lookup(allow[1..], ids[k]) {
      var t := SerializedColumns(archetype, allow[1..])[k];
      assert t in allow[1..];
      assert ids[k] == t.name;
      var j :| 0 <= j < |allow[1..]| && allow[1..][j] == t;
      assert allow[j + 1] == t;
      assert allow[0].name != t.name;
    }
    SameLookupSameColumns(allow, allow[1..], ids);
  }

  lemma {:induction false} SameLookupSameColumns(a1: AllowList, a2: AllowList, ids: seq<string>)
    requires forall k :: 0 <= k < |ids| ==> Lookup(a1, ids[k]) == Lookup(a2, ids[k])
    ensures KnownColumns(a1, ids) == KnownColumns(a2, ids)
    decreases |ids|
  {
    if ids != [] {
      SameLookupSameColumns(a1, a2, ids[..|ids| - 1]);
    }
  }

  /** The batch announced by the id pass and the columns then decoded name the same types in the same order. */
  method IdsThenComponents<C>(loader: Loader, allow: AllowList, input: IdStream, entityCount: nat, columns: seq<ColumnInput<C>>)
    returns (batch: Result<seq<TypeTag>, DecodeError>, decoded: Result<seq<(TypeTag, seq<C>)>, DecodeError>)
    requires !input.fails
    ensures batch.Ok?
    ensures decoded.Ok? ==> |decoded.value| == |batch.value|
    ensures decoded.Ok? ==> forall k :: 0 <= k < |batch.value| ==> decoded.value[k].0 == batch.value[k]
  {
    var loader';
    loader', batch := DeserializeComponentIds(loader, allow, input);
    decoded := DeserializeComponents(loader', allow, entityCount, columns);
  }
}

=== FILE: scene.dfy ===
/**
 * Scenes: an ordered list of entities, each an ordered list of serializable
 * components, built by the `entity!` and `scene!` macros and spawned into a
 * world by `spawn_scene`. The world is modelled as the ordered list of the
 * component lists of its entities.
 */
module Scene {
  import opened TypeIds

  /** A boxed `SerializableComponent`: its concrete type and its value. */
  datatype Component<V> = Component(tag: TypeTag, data: V)

  /** `SerializableEntity`. */
  datatype Entity<V> = Entity(components: seq<Component<V>>)

  datatype Scene<V> = Scene(entities: seq<Entity<V>>)

  /**
   * A hecs world as the scene sees it: its entities in spawn order, each a
   * map from component type to value, since an entity holds at most one
   * component of each type.
   */
  datatype World<V> = World(entities: seq<map<TypeTag, V>>)

  /** `Scene::new`. */
  function NewScene<V>(): (s: Scene<V>)
    ensures |s.entities| == 0
  {
    Scene([])
  }

  /**
   * `add_into`: the component adds a clone of itself to the entity builder;
   * hecs `EntityBuilder::add` replaces a component of the same type.
   */
  function AddInto<V>(builder: map<TypeTag, V>, c: Component<V>): (b: map<TypeTag, V>)
    ensures b.Keys == builder.Keys + {c.tag}
    ensures b[c.tag] == c.data
    ensures forall t :: t in builder && t != c.tag ==> b[t] == builder[t]
  {
    builder[c.tag := c.data]
  }

  /** Index `j` holds the last component of type `t` in `cs`. */
  predicate LastOfType<V>(cs: seq<Component<V>>, j: int, t: TypeTag)
  {
    0 <= j < |cs| && cs[j].tag == t && forall k :: j < k < |cs| ==> cs[k].tag != t
  }

  /** Some component of `cs` has type `t`. */
  ghost predicate Mentions<V>(cs: seq<Component<V>>, t: TypeTag)
  {
    exists j :: 0 <= j < |cs| && cs[j].tag == t
  }

  /**
   * The reference definition of a spawned entity: it has a component of
   * every type the list mentions and of no other, holding the value listed
   * last for that type.
   */
  ghost predicate Spawned<V>(e: map<TypeTag, V>, cs: seq<Component<V>>)
  {
    && (forall t :: t in e <==> Mentions(cs, t))
    && (forall j :: 0 <= j < |cs| && LastOfType(cs, j, cs[j].tag) ==> cs[j].tag in e && e[cs[j].tag] == cs[j].data)
  }

  /** The builder after the components of `cs` were added in order. */
  function Built<V>(cs: seq<Component<V>>): map<TypeTag, V>
    decreases |cs|
  {
    if cs == [] then map[] else AddInto(Built(cs[..|cs| - 1]), cs[|cs| - 1])
  }

  /** One more `add` keeps the builder equal to the reference entity of the longer list. */
  lemma SpawnedStep<V>(m: map<TypeTag, V>, prefix: seq<Component<V>>, c: Component<V>)
    requires Spawned(m, prefix)
    ensures Spawned(AddInto(m, c), prefix + [c])
  {
    var cs := prefix + [c];
    var m' := AddInto(m, c);
    assert forall j :: 0 <= j < |prefix| ==> cs[j] == prefix[j];
    forall t
      ensures t in m' <==> Mentions(cs, t)
    {
      if t in m {
        var j :| 0 <= j < |prefix| && prefix[j].tag == t;
        assert cs[j].tag == t;
      }
      if t != c.tag && Mentions(cs, t) {
        var j :| 0 <= j < |cs| && cs[j].tag == t;
        assert prefix[j].tag == t;
      }
      assert cs[|prefix|] == c;
    }
    forall j | 0 <= j < |cs| && LastOfType(cs, j, cs[j].tag)
      ensures cs[j].tag in m' && m'[cs[j].tag] == cs[j].data
    {
      if j < |prefix| {
        assert cs[|prefix|] == c;
        assert LastOfType(prefix, j, prefix[j].tag);
      }
    }
  }

  /** Adding the components one by one builds exactly the reference entity. */
  lemma {:induction false} BuiltIsSpawned<V>(cs: seq<Component<V>>)
    ensures Spawned(Built(cs), cs)
    decreases |cs|
  {
    if cs != [] {
      var prefix, last := cs[..|cs| - 1], cs[|cs| - 1];
      assert prefix + [last] == cs;
      assert Built(cs) == AddInto(Built(prefix), last);
      BuiltIsSpawned(prefix);
      SpawnedStep(Built(prefix), prefix, last);
    }
  }

  /** The reference definition pins the entity down: two entities spawned from one list are equal. */
  lemma SpawnedUnique<V>(e1: map<TypeTag, V>, e2: map<TypeTag, V>, cs: seq<Component<V>>)
    requires Spawned(e1, cs) && Spawned(e2, cs)
    ensures e1 == e2
  {
    forall t | t in e1
      ensures t in e2 && e1[t] == e2[t]
    {
      assert Mentions(cs, t);
      var j :| 0 <= j < |cs| && cs[j].tag == t;
      var last := LastIndex(cs, j);
      assert LastOfType(cs, last, t);
    }
  }

  /** The last index at or after `j` whose component has the type of `cs[j]`. */
  ghost function LastIndex<V>(cs: seq<Component<V>>, j: nat): (r: nat)
    requires j < |cs|
    ensures j <= r < |cs| && LastOfType(cs, r, cs[j].tag)
    decreases |cs| - j
  {
    if exists k :: j < k < |cs| && cs[k].tag == cs[j].tag then
      var k :| j < k < |cs| && cs[k].tag == cs[j].tag;
      LastIndex(cs, k)
    else j
  }

  /** Two components of one type: the entity keeps only the one added last. */
  lemma LaterDuplicateWins<V>(t: TypeTag, first: V, second: V)
    ensures Built([Component(t, first), Component(t, second)]) == map[t := second]
  {
    var cs := [Component(t, first), Component(t, second)];
    assert cs[..1] == [Component(t, first)];
    assert cs[..1][..0] == [];
    assert Built(cs[..1]) == map[t := first];
    assert map[t := first][t := second] == map[t := second];
  }

  /**
   * When an entity lists each type once, spawning keeps every listed
   * component with its own value.
   */
  lemma DistinctTypesAllKept<V>(e: map<TypeTag, V>, cs: seq<Component<V>>)
    requires Spawned(e, cs)
    requires forall i, j :: 0 <= i < j < |cs| ==> cs[i].tag != cs[j].tag
    ensures forall j :: 0 <= j < |cs| ==> cs[j].tag in e && e[cs[j].tag] == cs[j].data
  {
    forall j | 0 <= j < |cs|
      ensures cs[j].tag in e && e[cs[j].tag] == cs[j].data
    {
      assert LastOfType(cs, j, cs[j].tag);
    }
  }

  /** `entity![c1, …, cn]`: a default entity, then one push per argument, left to right. */
  method EntityOf<V>(cs: seq<Component<V>>) returns (e: Entity<V>)
    requires |cs| > 0
    ensures e.components == cs
  {
    e := Entity([]);
    var i := 0;
    while i < |cs|
      invariant 0 <= i <= |cs|
      invariant e.components == cs[..i]
    {
      e := e.(components := e.components + [cs[i]]);
      i := i + 1;
    }
  }

  /** `scene!{ entities: [e1, …, en] }`: the entities pushed in order. */
  method SceneOf<V>(es: seq<Entity<V>>) returns (s: Scene<V>)
    requires |es| > 0
    ensures s.entities == es
  {
    var entities: seq<Entity<V>> := [];
    var i := 0;
    while i < |es|
      invariant 0 <= i <= |es|
      invariant entities == es[..i]
    {
      entities := entities + [es[i]];
      i := i + 1;
    }
    s := Scene(entities);
  }

  /** The entity builder of one scene entry: its components added in list order. */
  method BuildEntity<V>(components: seq<Component<V>>) returns (builder: map<TypeTag, V>)
    ensures Spawned(builder, components)
  {
    builder := map[];
    var j := 0;
    while j < |components|
      invariant 0 <= j <= |components|
      invariant builder == Built(components[..j])
    {
      assert components[..j + 1][..j] == components[..j];
      builder := AddInto(builder, components[j]);
      j := j + 1;
    }
    assert components[..j] == components;
    BuiltIsSpawned(components);
  }

  /**
   * `spawn_scene`: clears the world, then spawns one entity per scene entry
   * in scene order, each built from clones of its components in list order.
   */
  method SpawnScene<V>(w: World<V>, scene: Scene<V>) returns (w': World<V>)
    ensures |w'.entities| == |scene.entities|
    ensures forall i :: 0 <= i < |scene.entities| ==> Spawned(w'.entities[i], scene.entities[i].components)
  {
    w' := World([]);
    var i := 0;
    while i < |scene.entities|
      invariant 0 <= i <= |scene.entities|
      invariant |w'.entities| == i
      invariant forall k :: 0 <= k < i ==> Spawned(w'.entities[k], scene.entities[k].components)
    {
      var builder := BuildEntity(scene.entities[i].components);
      w' := World(w'.entities + [builder]);
      i := i + 1;
    }
  }

  /**
   * Building a scene with `scene!` from entities whose components have
   * distinct types and spawning it gives back every component of every
   * entity, entity by entity.
   */
  method SpawnBuiltScene<V>(w: World<V>, es: seq<Entity<V>>) returns (w': World<V>)
    requires |es| > 0
    requires forall e :: e in es ==> forall i, j :: 0 <= i < j < |e.components| ==> e.components[i].tag != e.components[j].tag
    ensures |w'.entities| == |es|
    ensures forall i, j :: 0 <= i < |es| && 0 <= j < |es[i].components| ==>
              es[i].components[j].tag in w'.entities[i] && w'.entities[i][es[i].components[j].tag] == es[i].components[j].data
    ensures forall i :: 0 <= i < |es| ==> |w'.entities[i].Keys| <= |es[i].components|
  {
    var scene := SceneOf(es);
    w' := SpawnScene(w, scene);
    forall i | 0 <= i < |es|
      ensures forall j :: 0 <= j < |es[i].components| ==>
                es[i].components[j].tag in w'.entities[i] && w'.entities[i][es[i].components[j].tag] == es[i].components[j].data
      ensures |w'.entities[i].Keys| <= |es[i].components|
    {
      assert es[i] in es;
      DistinctTypesAllKept(w'.entities[i], es[i].components);
      KeysAtMostComponents(w'.entities[i], es[i].components);
    }
  }

  /** A spawned entity has at most as many components as its list. */
  lemma {:induction false} KeysAtMostComponents<V>(e: map<TypeTag, V>, cs: seq<Component<V>>)
    requires Spawned(e, cs)
    ensures |e.Keys| <= |cs|
  {
    var tags := set j | 0 <= j < |cs| :: cs[j].tag;
    assert e.Keys == tags by {
      forall t | t in e ensures t in tags {
        assert Mentions(cs, t);
        var j :| 0 <= j < |cs| && cs[j].tag == t;
      }
    }
    TagsAtMost(cs);
  }

  lemma {:induction false} TagsAtMost<V>(cs: seq<Component<V>>)
    ensures |set j | 0 <= j < |cs| :: cs[j].tag| <= |cs|
    decreases |cs|
  {
    if cs != [] {
      var rest := cs[..|cs| - 1];
      TagsAtMost(rest);
      var tags := set j | 0 <= j < |cs| :: cs[j].tag;
      var restTags := set j | 0 <= j < |rest| :: rest[j].tag;
      assert tags == restTags + {cs[|cs| - 1].tag} by {
        forall t | t in tags ensures t in restTags + {cs[|cs| - 1].tag} {
          var j :| 0 <= j < |cs| && cs[j].tag == t;
          if j < |cs| - 1 { assert rest[j] == cs[j]; }
        }
        forall t | t in restTags ensures t in tags {
          var j :| 0 <= j < |rest| && rest[j].tag == t;
          assert cs[j] == rest[j];
        }
      }
    }
  }
}

=== FILE: textures.dfy ===
/**
 * What the two GUI painters share: egui's texture ids and image deltas, the
 * native texture id range, the maximum texture side, and the checks an
 * image must pass before it is uploaded.
 */
module Textures {
  import opened Wrappers

  /** `egui::TextureId`: ids egui allocates, and ids the user (the painter) allocates. */
  datatype TextureId = Managed(managed: nat) | User(user: nat)

  /**
   * A GL texture object: its name, and the size of the level-0 image
   * `glTexImage2D` gave it (`None` for a texture generated but never given
   * storage). Texel contents are not modelled.
   */
  datatype Texture = Texture(glName: nat, storage: Option<(nat, nat)>)

  datatype ImageKind = ColorImage | FontImage

  /**
   * `egui::ImageData`: its declared size and its number of texels. Both kinds
   * turn each texel into four sRGBA bytes before upload.
   */
  datatype ImageData = ImageData(kind: ImageKind, width: nat, height: nat, texels: nat)

  datatype TextureFilter = Linear | Nearest

  /** `egui::epaint::ImageDelta`: a whole image, or a patch at `pos`. */
  datatype ImageDelta = ImageDelta(image: ImageData, pos: Option<(nat, nat)>, filter: TextureFilter)

  /**
   * The effect of uploading `delta` into the bound texture `t`: a whole
   * image (`glTexImage2D`) gives it storage of the image's size; a patch
   * (`glTexSubImage2D`) writes texels inside the existing storage and
   * cannot give storage to a texture that has none.
   */
  function Upload(t: Texture, delta: ImageDelta): (u: Texture)
    ensures u.glName == t.glName
    ensures delta.pos.None? ==> u.storage == Some((delta.image.width, delta.image.height))
    ensures delta.pos.Some? ==> u.storage == t.storage
  {
    if delta.pos.None? then t.(storage := Some((delta.image.width, delta.image.height))) else t
  }

  /** The first id `register_native_texture` hands out, `1 << 32`. */
  const FirstNativeTextureId: nat := 0x1_0000_0000

  const MaxTextureSide: nat := 4096

  /** The `assert!` failures an upload can hit. */
  datatype Panic = TexelCountMismatch | ByteLengthMismatch | TextureTooLarge | ClampBoundsInverted

  /** Length of the byte slice built from the texels (a `Color32` is four bytes). */
  function DataLen(image: ImageData): nat
  {
    4 * image.texels
  }

  /** The assertions guarding an upload, in the order the code makes them. */
  function CheckImage(image: ImageData, maxSide: nat): (r: Option<Panic>)
    ensures r.None? <==> image.width * image.height == image.texels && image.width <= maxSide && image.height <= maxSide
    ensures r == Some(ByteLengthMismatch) ==> false
  {
    if image.width * image.height != image.texels then Some(TexelCountMismatch)
    else if DataLen(image) != image.width * image.height * 4 then Some(ByteLengthMismatch)
    else if !(image.width <= maxSide && image.height <= maxSide) then Some(TextureTooLarge)
    else None
  }

  /** A painted mesh: the texture it samples and its number of indices. Callback primitives are not modelled. */
  datatype Primitive = MeshPrimitive(textureId: TextureId, indexCount: nat)

  /** A `glDrawElements` of `indexCount` indices with `texture` bound. */
  datatype Draw = Draw(texture: Texture, indexCount: nat)

  /** `paint_mesh` over every primitive: a mesh whose texture is unknown is skipped with a warning. */
  function PaintPrimitives(textures: map<TextureId, Texture>, prims: seq<Primitive>): (draws: seq<Draw>)
    ensures |draws| <= |prims|
    ensures forall d :: d in draws ==> d.texture in textures.Values
    ensures (forall i :: 0 <= i < |prims| ==> prims[i].textureId !in textures) ==> draws == []
    decreases |prims|
  {
    if prims == [] then []
    else
      var head := if prims[0].textureId in textures then [Draw(textures[prims[0].textureId], prims[0].indexCount)] else [];
      head + PaintPrimitives(textures, prims[1..])
  }

  /** Every primitive whose texture is present is drawn with that texture and all its indices. */
  lemma {:induction false} PresentTextureIsDrawn(textures: map<TextureId, Texture>, prims: seq<Primitive>, i: nat)
    requires i < |prims| && prims[i].textureId in textures
    ensures Draw(textures[prims[i].textureId], prims[i].indexCount) in PaintPrimitives(textures, prims)
    decreases i
  {
    if i > 0 {
      PresentTextureIsDrawn(textures, prims[1..], i - 1);
    }
  }

  // ----- the painter's texture map, the same in both crates -----

  datatype Painter = Painter(
    maxTextureSide: nat,
    textures: map<TextureId, Texture>,
    nextNativeTexId: nat,
    texturesToDestroy: seq<Texture>)
  {
    /** Every user id in the map was handed out before the counter's current value. */
    ghost predicate Valid()
    {
      nextNativeTexId >= FirstNativeTextureId &&
      forall id :: id in textures && id.User? ==> id.user < nextNativeTexId
    }
  }

  function New(): (p: Painter)
    ensures p.Valid()
    ensures p.textures == map[] && p.texturesToDestroy == []
    ensures p.maxTextureSide == MaxTextureSide
    ensures p.nextNativeTexId == FirstNativeTextureId
  {
    Painter(MaxTextureSide, map[], FirstNativeTextureId, [])
  }

  function Lookup(p: Painter, id: TextureId): (r: Option<Texture>)
    ensures r.Some? <==> id in p.textures
    ensures r.Some? ==> r.value == p.textures[id]
  {
    if id in p.textures then Some(p.textures[id]) else None
  }

  /** `register_native_texture`: hand out the next user id and map it to `native`. */
  function RegisterNativeTexture(p: Painter, native: Texture): (r: (Painter, TextureId))
    ensures r.1 == User(p.nextNativeTexId)
    ensures r.0.nextNativeTexId == p.nextNativeTexId + 1
    ensures r.0.textures == p.textures[r.1 := native]
    ensures r.0.texturesToDestroy == p.texturesToDestroy && r.0.maxTextureSide == p.maxTextureSide
    ensures p.Valid() ==> r.0.Valid() && r.1 !in p.textures
  {
    var id := User(p.nextNativeTexId);
    (p.(textures := p.textures[id := native], nextNativeTexId := p.nextNativeTexId + 1), id)
  }

  /** Two registrations in a row never share an id, and both textures stay reachable. */
  lemma RegisterTwiceDistinct(p: Painter, a: Texture, b: Texture)
    requires p.Valid()
    ensures var (p1, id1) := RegisterNativeTexture(p, a);
            var (p2, id2) := RegisterNativeTexture(p1, b);
            id1 != id2 && Lookup(p2, id1) == Some(a) && Lookup(p2, id2) == Some(b)
  {
  }

  /** `replace_native_texture`: map `id` to `replacing`; a texture it displaces is queued for destruction. */
  function ReplaceNativeTexture(p: Painter, id: TextureId, replacing: Texture): (q: Painter)
    ensures q.textures == p.textures[id := replacing]
    ensures id in p.textures ==> q.texturesToDestroy == p.texturesToDestroy + [p.textures[id]]
    ensures id !in p.textures ==> q.texturesToDestroy == p.texturesToDestroy
    ensures q.nextNativeTexId == p.nextNativeTexId && q.maxTextureSide == p.maxTextureSide
  {
    var destroy := if id in p.textures then p.texturesToDestroy + [p.textures[id]] else p.texturesToDestroy;
    p.(textures := p.textures[id := replacing], texturesToDestroy := destroy)
  }

  /** No texture is lost by a replacement: each one mapped before is still mapped or awaits destruction. */
  lemma ReplaceLosesNothing(p: Painter, id: TextureId, replacing: Texture)
    ensures var q := ReplaceNativeTexture(p, id, replacing);
            forall k :: k in p.textures ==> p.textures[k] in q.textures.Values || p.textures[k] in q.texturesToDestroy
  {
    var q := ReplaceNativeTexture(p, id, replacing);
    forall k | k in p.textures
      ensures p.textures[k] in q.textures.Values || p.textures[k] in q.texturesToDestroy
    {
      if k == id {
        assert p.textures[k] == q.texturesToDestroy[|q.texturesToDestroy| - 1];
      } else {
        assert q.textures[k] == p.textures[k];
      }
    }
  }

  /** `free_texture`: forget `id`; the dropped texture deletes itself. */
  function FreeTexture(p: Painter, id: TextureId): (q: Painter)
    ensures id !in q.textures
    ensures forall k :: k in p.textures && k != id ==> k in q.textures && q.textures[k] == p.textures[k]
    ensures q.textures.Keys == p.textures.Keys - {id}
    ensures q.nextNativeTexId == p.nextNativeTexId && q.texturesToDestroy == p.texturesToDestroy
  {
    p.(textures := p.textures - {id})
  }

  /** The free loop of a frame: forget every listed id, in order. */
  function FreeAll(p: Painter, frees: seq<TextureId>): (q: Painter)
    ensures forall i :: 0 <= i < |frees| ==> frees[i] !in q.textures
    ensures q.textures.Keys == p.textures.Keys - set i | 0 <= i < |frees| :: frees[i]
    ensures forall k :: k in q.textures ==> q.textures[k] == p.textures[k]
    ensures q.nextNativeTexId == p.nextNativeTexId && q.texturesToDestroy == p.texturesToDestroy
    decreases |frees|
  {
    if frees == [] then p else FreeAll(FreeTexture(p, frees[0]), frees[1..])
  }


  /** The result of an operation that may stop on a failed assertion, with the state reached. */
  datatype Step = Step(painter: Painter, panic: Option<Panic>)

  /** One entry of `TexturesDelta::set`, with the GL name `glGenTextures` would return for it. */
  datatype SetOp = SetOp(id: TextureId, delta: ImageDelta, generated: nat)

  /** The ids a list of deltas uploads to. */
  function IdsOf(sets: seq<SetOp>): set<TextureId>
  {
    set op | op in sets :: op.id
  }

  /** The outcome of `paint_and_update_textures`. */
  datatype Frame = Frame(painter: Painter, draws: seq<Draw>, panic: Option<Panic>)

}

=== FILE: type_ids.dfy ===
/**
 * Type identity as the engine uses it: `TypeId::of::<T>()` for dispatch and
 * `pretty_type_name::<T>()` for diagnostics. Two tags are the same type
 * exactly when they are equal; the name is carried only to be reported.
 */
module TypeIds {

  datatype TypeTag = TypeTag(id: nat, name: string)
}

=== FILE: wrappers.dfy ===
/** Failure-compatible Option and Result types shared by every module of the model. */
module Wrappers {

  datatype Option<+T> = None | Some(value: T) {
    predicate IsFailure() { None? }

    function PropagateFailure<U>(): Option<U>
      requires None?
    {
      None
    }

    function Extract(): T
      requires Some?
    {
      value
    }
  }

  datatype Result<+R, +E> = Ok(value: R) | Err(error: E) {
    predicate IsFailure() { Err? }

    function PropagateFailure<U>(): Result<U, E>
      requires Err?
    {
      Err(error)
    }

    function Extract(): R
      requires Ok?
    {
      value
    }
  }
}
